=== FILE: README.md ===
# TÜBİTAK PLIC-style interrupt controller and Yonca UART — a Dafny model

This project models the core of the OpenSBI support for the TÜBİTAK "Yonca" platform. It
covers three parts:

- **The interrupt-controller driver** (`lib/utils/irqchip/irqchip_tubitak.c`):
  - the register layout computed from three runtime counts (targets, sources, priority
    levels);
  - the config probe that may replace those counts from the controller's config register;
  - per-context save, restore and init of the enable words and threshold register;
  - the warm and cold init entry points;
  - the priority-word save and restore helpers.
- **The device-tree glue** (`lib/utils/irqchip/fdt_irqchip_tubitak.c`):
  - the per-hart table kept in scratch space: descriptor pointer, and M-mode and S-mode
    context ids stored as `ctx + 1`;
  - the `interrupts-extended` walk that fills that table;
  - the cold init with its allocate-once guard and its error paths;
  - the per-hart warm init and the context save and restore wrappers.
- **The Yonca UART console** (`lib/utils/serial/tubitak-uart.c`): the NCO baud-rate
  arithmetic, the control-register update, `getc`, one polling step of `putc`, and init.

Everything is pure functions over immutable values:

- Memory-mapped registers are a `RegMap` (address to 32-bit word; an unwritten register reads
  as 0).
- The driver's globals travel as explicit values: the three counts as `Counts`, and the
  firmware-wide state as `Platform`.
- The firmware services the code calls are inputs:
  - scratch allocation, heap allocation, node parsing, the platform hook and root-domain
    registration are collected in `ColdOracle`;
  - the phandle lookup is the `resolve` map.

`u32` arithmetic the source relies on is written out as `U32` (reduction mod 2^32):

- `ie_words`;
- the `0x4 * word_indx` byte offset;
- the `int`-to-`u32` context id;
- the NCO quotient.

`int` conversions are written out as `Int32`.

Modules:

- `machine.dfy`: words, the register file, consecutive-word stores.
- `sbi.dfy`: return codes and interrupt numbers.
- `layout.dfy`: the `PLIC_*` size, offset and field macros.
- `probe.dfy`: `tubitak_ic_get_and_set_plic_config`.
- `irqchip.dfy`: the rest of `irqchip_tubitak.c`.
- `hart_table.dfy`: scratch encoding and the `interrupts-extended` walk.
- `fdt_irqchip.dfy`: the cold init, warm init and wrappers of `fdt_irqchip_tubitak.c`.
- `uart.dfy`: `tubitak-uart.c`.

In these places the model follows the code rather than its comments or the usual PLIC
conventions:

- **Probe stops early.** The probe returns at the first field that fails its check, so a
  bad target count also leaves the source and priority counts at their old values. It does
  not validate each field independently.
- **Target-count rule.** A target count is accepted when it is a multiple of 4 and at
  least 4. It is not restricted to a power of two ≤ 32, despite the comment at `lib/utils/irqchip/irqchip_tubitak.c:19`.
- **Rounding.** Region lengths use integer division rounded down, then
  `NEXT_MULTIPLY_OF_4`. They are not ceilings.
- **ID bits.** ID bits per target are `⌊log2(sources+1)⌋`, not the ceiling.
- **Enable words per target.** `sources/32 + 1`, not `⌈sources/32⌉`.
- **Priority region.** `PLIC_PRIORITY_LEN` rounds the bit count down to bytes, so with 9
  sources and 16 levels the region is one word and source 9's priority word is the first
  enable word (`Layout.PriorityLenRoundsDownExample`).
- **Two source counts.** The driver sizes save, restore and init by the descriptor's
  `num_src` (from the device tree), but places the contexts by the probed source count.
  Contexts stay apart only while `num_src / 32` is at most `sources / 32`
  (`Irqchip.OversizedSourceCountOverlapsNextTarget`).
- **Cold-init priority loop.** The loop does not zero the priorities. It calls the setter
  with value `i` and word index 0, so the first priority word ends up holding the source
  count (`Irqchip.ColdInitLeavesPrioritiesSet`).
- **Step order in cold init.** The controller's cold init probes the config, installs the
  handler and writes priorities before it registers the memory range.
- **Partial state after a failed cold init.** When the glue's cold init fails after the
  controller init, the descriptor is freed (the heap is unchanged). The counts, registers
  and handler the controller init set stay in place.
- **`setbrg` mask.** `setbrg` clears only bits 16-23 of `ctrl` but ORs in the whole
  `nco << 16`.

## Model

| member | source | states |
|---|---|---|
| Layout.NextMultipleOf4 | lib/utils/irqchip/irqchip_tubitak.c:29-38 | the result is a multiple of 4; it is 4 for 0; for a positive argument without wrap-around it lies in [x, x+4) |
| Layout.NextMultipleOf4IsLeast | lib/utils/irqchip/irqchip_tubitak.c:29-38 | for a positive argument the result is the least multiple of 4 not below it |
| Layout.NextMultipleOf4ByRemainder | lib/utils/irqchip/irqchip_tubitak.c:29-38 | a positive multiple of 4 is kept; any other argument is rounded up to 4·(x/4)+4 |
| Layout.Log2IsFloorLog | lib/utils/irqchip/irqchip_tubitak.c:28 | `LOG2(x)` equals k exactly when 2^k ≤ x < 2^(k+1), i.e. it is the floor logarithm |
| Layout.Log2 | lib/utils/irqchip/irqchip_tubitak.c:28 | `LOG2(x)` is one less than the bit length of x, hence below 32 |
| Layout.IeLenPerTarget | lib/utils/irqchip/irqchip_tubitak.c:43 | the per-target enable stride is a whole, non-zero number of words |
| Layout.ElLen | lib/utils/irqchip/irqchip_tubitak.c:48 | a multiple of 4: 4 when fewer than 8 sources, otherwise the rounded-down byte count of one bit per source rounded up to a word |
| Layout.PriorityLen | lib/utils/irqchip/irqchip_tubitak.c:50 | for counts the probe can accept, a non-zero multiple of 4: 4 when the rounded-down byte count `sources × bits / 8` is 0, otherwise that count rounded up to a word (so within 4 bytes above it) |
| Layout.PriorityLenRoundsDownExample | lib/utils/irqchip/irqchip_tubitak.c:50-92 | with 9 sources and 16 levels the priority region is one word though nine 4-bit fields need 36 bits, and source 9's priority word is target 0's first enable word |
| Layout.IeLen | lib/utils/irqchip/irqchip_tubitak.c:52 | a multiple of 4 giving each target at least one word |
| Layout.IeOffForTarget | lib/utils/irqchip/irqchip_tubitak.c:100-101 | target t's first enable word is word-aligned, at or after the enable region's start, and a real target's stride ends within `targets` strides of it |
| Layout.ThreshOffForTarget | lib/utils/irqchip/irqchip_tubitak.c:108-109 | word-aligned, and a real target's threshold word lies inside the threshold region |
| Layout.PriPerReg | lib/utils/irqchip/irqchip_tubitak.c:90 | for every count the probe can accept, a priority word holds between 1 and 16 fields |
| Layout.PriorityBitsAtLeast2 | lib/utils/irqchip/irqchip_tubitak.c:40 | every accepted priority count gives between 2 and 31 priority bits per source |
| Layout.RegionLengthsArePositiveMultiplesOf4 | lib/utils/irqchip/irqchip_tubitak.c:45-57 | the EL, priority, IE, threshold and ID region lengths are all positive multiples of 4 |
| Layout.OffsetsAlignedAndIncreasing | lib/utils/irqchip/irqchip_tubitak.c:60-70 | the region offsets are 4-byte aligned and strictly increasing in the order config, EL, priority, IE, threshold, ID |
| Layout.DefaultLayout | lib/utils/irqchip/irqchip_tubitak.c:20-70 | with the default counts 4/40/16 the regions start at 8, 16, 36, 68 and 84 |
| Layout.DefaultPriorityPacking | lib/utils/irqchip/irqchip_tubitak.c:90-98 | with 16 levels each source has 4 bits and a word holds 8; sources 1, 8 and 9 shift by 0, 28 and 0; the word macro puts source 8 in word 1 |
| Layout.PriorityFieldFitsInWord | lib/utils/irqchip/irqchip_tubitak.c:90-98 | every source's priority field, and its mask, lies inside one 32-bit word for every accepted count |
| Layout.IeStrideMatchesRegionIff | lib/utils/irqchip/irqchip_tubitak.c:43-52 | the IE region equals targets × `IE_LEN_PER_TARGET` iff sources/8 is zero or not a multiple of 4; it is never larger |
| Layout.IeStrideOverrunsRegionExample | lib/utils/irqchip/irqchip_tubitak.c:100-109 | with 32 sources and 4 targets, target 2's first enable word is target 0's threshold register |
| Layout.TargetRegistersInsideRegions | lib/utils/irqchip/irqchip_tubitak.c:100-109 | when stride and region agree, each target's enable words end before the threshold region, and its threshold word ends before the ID region |
| Machine.WordAddrInjective | lib/utils/irqchip/irqchip_tubitak.c:189-194 | word indices below 2^30 name distinct addresses despite the `u32` byte offset |
| Machine.StoreWords | lib/utils/irqchip/irqchip_tubitak.c:219-220 | ascending word writes leave every uncovered register alone and, for ≤ 2^30 words, word i holds vals[i] |
| Machine.StoreWordsOverwrites | lib/utils/irqchip/irqchip_tubitak.c:236-237 | at the addresses it covers, a word store's result does not depend on the starting register file |
| Probe.FieldsPartitionWord | lib/utils/irqchip/irqchip_tubitak.c:76-80 | the target field (bits 16-31) and the source field (bits 0-15) together make up the config word |
| Probe.ProbeConfig | lib/utils/irqchip/irqchip_tubitak.c:266-292 | each count is replaced iff it and every earlier field pass their checks, otherwise it keeps its old value |
| Probe.ProbePreservesValid | lib/utils/irqchip/irqchip_tubitak.c:266-292 | counts that satisfy the layout's assumptions still satisfy them after the probe |
| Probe.RejectedTargetChangesNothing | lib/utils/irqchip/irqchip_tubitak.c:269-274 | a rejected target field leaves all three counts unchanged |
| Probe.RejectedSourceKeepsLaterFields | lib/utils/irqchip/irqchip_tubitak.c:275-282 | a rejected source field keeps the new target count and leaves the source and priority counts alone |
| Probe.TargetCountThreeIsRejected | lib/utils/irqchip/irqchip_tubitak.c:271-274 | a target field of 3 leaves the default counts in place |
| Probe.ProbeIdempotent | lib/utils/irqchip/irqchip_tubitak.c:266-292 | probing the same word twice gives the same counts as probing it once |
| Irqchip.ClampWords | lib/utils/irqchip/irqchip_tubitak.c:200-203 | the transferred count is the smaller of `num` and `ie_words` |
| Irqchip.IeWords | lib/utils/irqchip/irqchip_tubitak.c:233 | `ie_words` fits in a `u32` and, without wrap-around, is exactly the number of words holding one bit for each id 0 to `num_src` |
| Irqchip.TargetOf | lib/utils/irqchip/irqchip_tubitak.c:205-206 | a context id in `u32` range reaches the accessor unchanged |
| Irqchip.ContextSave | lib/utils/irqchip/irqchip_tubitak.c:197-209 | saves min(num, ie_words) enable words, word i read from the context's i-th enable address, plus the context's threshold |
| Irqchip.ContextRestore | lib/utils/irqchip/irqchip_tubitak.c:211-223 | the threshold reads back; nothing outside the context's enable words and threshold changes; without aliasing each enable word reads back |
| Irqchip.RestoreThenSave | lib/utils/irqchip/irqchip_tubitak.c:197-223 | save after restore returns the restored prefix and threshold, when the enable words do not reach the threshold |
| Irqchip.SaveThenRestoreChangesNothing | lib/utils/irqchip/irqchip_tubitak.c:197-223 | restoring what was just saved leaves every register as it was |
| Irqchip.NoAliasWhenStrideFits | lib/utils/irqchip/irqchip_tubitak.c:172-195 | when the descriptor's `num_src / 32` is at most the probed `sources / 32` and the stride matches the IE region, a real target's enable words never hit its threshold |
| Irqchip.ContextsDisjoint | lib/utils/irqchip/irqchip_tubitak.c:100-112 | under the same two conditions, two different targets share no enable or threshold register |
| Irqchip.OversizedSourceCountOverlapsNextTarget | lib/utils/irqchip/irqchip_tubitak.c:189-223 | with the default counts (40 sources) and `num_src` 64, `ie_words` is 3 and target 0's third enable word is target 1's first, though the stride matches the region |
| Irqchip.OversizedRestoreOverwritesNextTarget | lib/utils/irqchip/irqchip_tubitak.c:211-223 | in that case, restoring [0, 0, 5] to target 0 makes a save of target 1 read [5] |
| Irqchip.RestoreOfLastTargetLosesEnableWord | lib/utils/irqchip/irqchip_tubitak.c:211-223 | with 32 sources, restoring target 3's enable words [0,5] with threshold 7 reads back [0,7] |
| Irqchip.RestoreKeepsOtherContext | lib/utils/irqchip/irqchip_tubitak.c:211-223 | when `num_src / 32` is at most `sources / 32` and the stride matches the IE region, restoring one real context leaves what a save of any other real context reads unchanged |
| Irqchip.ContextInit | lib/utils/irqchip/irqchip_tubitak.c:225-242 | `SBI_EINVAL` iff the descriptor is null or the id negative, with nothing written; otherwise 0 and the threshold is written |
| Irqchip.InitIsRestoreOfFill | lib/utils/irqchip/irqchip_tubitak.c:225-242 | a successful context init equals a restore of `ie_words` copies of all-ones or all-zeros |
| Irqchip.InitThenSave | lib/utils/irqchip/irqchip_tubitak.c:225-242 | after init, a save reads the enable value in every word and the written threshold |
| Irqchip.ContextInitFootprint | lib/utils/irqchip/irqchip_tubitak.c:225-242 | a context init changes only its enable words and threshold, and leaves values there that do not depend on what was there before |
| Irqchip.InitKeepsOtherContext | lib/utils/irqchip/irqchip_tubitak.c:225-242 | when `num_src / 32` is at most `sources / 32` and the stride matches the IE region, initialising one context leaves every other real context's saved enable words and threshold unchanged |
| Irqchip.WarmIrqchipInit | lib/utils/irqchip/irqchip_tubitak.c:244-264 | two negative ids give 0 with nothing written; the result is `SBI_EINVAL` iff the descriptor is null and some id is not negative; on failure nothing is written |
| Irqchip.WarmInitFootprint | lib/utils/irqchip/irqchip_tubitak.c:244-264 | with a descriptor, no register changes outside the enable words and threshold of the non-negative ids, so a negative id causes no writes |
| Irqchip.WarmInitDisablesRealContexts | lib/utils/irqchip/irqchip_tubitak.c:244-264 | with a descriptor whose `num_src / 32` is at most `sources / 32`, on a layout whose stride matches its IE region, the result is 0 and every real id that is not negative (M only, S only, both, or the same id twice) ends with every enable word 0 and threshold 7 |
| Irqchip.WarmInitDisablesBothContexts | lib/utils/irqchip/irqchip_tubitak.c:244-264 | under the same two conditions, two distinct real contexts both end with every enable word 0 and threshold 7 |
| Irqchip.WarmInitIdempotent | lib/utils/irqchip/irqchip_tubitak.c:244-264 | a second warm init returns the same code and leaves every register as the first left it |
| Irqchip.PriorityLoopAsWritten | lib/utils/irqchip/irqchip_tubitak.c:304-306 | the loop writes only the first priority word, which ends up holding the last loop value |
| Irqchip.ColdIrqchipInit | lib/utils/irqchip/irqchip_tubitak.c:294-311 | `SBI_EINVAL` with nothing changed, the handler flag included, for a null descriptor; otherwise the counts are the probe's, the handler is installed, only the first priority word changes (to the source count when there are sources; with no sources no register changes) and the memrange result is returned |
| Irqchip.ColdInitLeavesPrioritiesSet | lib/utils/irqchip/irqchip_tubitak.c:304-306 | after cold init the first priority word holds the (non-zero) source count and every other priority word is unchanged |
| Irqchip.ColdInitOtherPriorityWord | lib/utils/irqchip/irqchip_tubitak.c:304-306 | no priority word other than the first is written by cold init |
| Irqchip.PriorityBase | lib/utils/irqchip/irqchip_tubitak.c:123-135 | `PRIORITY_OFF_FOR_SRC(0)` is the start of the priority region |
| Irqchip.PrioritySave | lib/utils/irqchip/irqchip_tubitak.c:137-141 | returns `num` words, word i read from the i-th priority word |
| Irqchip.PriorityRestoreAsWritten | lib/utils/irqchip/irqchip_tubitak.c:143-148 | only the words indexed by the given priorities change, and the last one holds the last loop index |
| Irqchip.PriorityRestoreDoesNotRoundTrip | lib/utils/irqchip/irqchip_tubitak.c:143-148 | restoring [5] and saving again gives [0], not [5] |
| Irqchip.PriorityRestore | lib/utils/irqchip/irqchip_tubitak.c:143-148 | the corrected restore changes only the first `num` priority words |
| Irqchip.PriorityRestoreThenSave | lib/utils/irqchip/irqchip_tubitak.c:137-148 | with the corrected restore, save after restore returns the restored priorities |
| Irqchip.PrioritySaveThenRestoreChangesNothing | lib/utils/irqchip/irqchip_tubitak.c:137-148 | with the corrected restore, restoring what was saved leaves every register as it was |
| HartTable.SlotEncodingRoundTrip | lib/utils/irqchip/fdt_irqchip_tubitak.c:26-40 | slot encoding and decoding are mutually inverse, and only a zero slot decodes to -1 |
| HartTable.SetMContext | lib/utils/irqchip/fdt_irqchip_tubitak.c:26-32 | the M-context reads back, and the S-context and pointer are untouched |
| HartTable.SetSContext | lib/utils/irqchip/fdt_irqchip_tubitak.c:34-40 | the S-context reads back, and the M-context and pointer are untouched |
| HartTable.PairHart | lib/utils/irqchip/fdt_irqchip_tubitak.c:103-117 | a pair resolves only to a hart that has a scratch area |
| HartTable.LastMatch | lib/utils/irqchip/fdt_irqchip_tubitak.c:99-128 | the result is the last of the first n pairs naming the hart in that mode, and None iff there is none |
| HartTable.WalkMatchesReference | lib/utils/irqchip/fdt_irqchip_tubitak.c:99-128 | after the walk, a hart's pointer is set iff some pair names it, and each mode's slot encodes the last pair naming it in that mode |
| HartTable.StepKeepsResolution | lib/utils/irqchip/fdt_irqchip_tubitak.c:103-117 | which harts a pair resolves to does not change while the table is being filled |
| HartTable.UnnamedHartUnchanged | lib/utils/irqchip/fdt_irqchip_tubitak.c:103-119 | a hart no pair names keeps its entire entry |
| HartTable.UpdateHartidTable | lib/utils/irqchip/fdt_irqchip_tubitak.c:86-131 | `SBI_EINVAL` iff the property is missing or empty, with the table unchanged; otherwise 0; the set of harts never changes |
| HartTable.TwoPairExample | lib/utils/irqchip/fdt_irqchip_tubitak.c:99-127 | pairs (A, S_EXT), (A, M_EXT) give S-context 0 and M-context 1 |
| HartTable.Step | lib/utils/irqchip/fdt_irqchip_tubitak.c:100-127 | one pair changes at most the hart it resolves to: that hart gets the descriptor pointer, and the M or S slot the hwirq selects is set to the pair index plus one; other hwirqs set no slot |
| HartTable.Walk | lib/utils/irqchip/fdt_irqchip_tubitak.c:99-128 | the walk keeps the set of harts with scratch areas (its per-hart result is `HartTable.WalkMatchesReference`) |
| HartTable.WalkPreservesConsistency | lib/utils/irqchip/fdt_irqchip_tubitak.c:119-127 | with a non-null descriptor, every hart with a slot set also has a pointer |
| FdtIrqchip.AllocateOffsets | lib/utils/irqchip/fdt_irqchip_tubitak.c:139-155 | `SBI_ENOMEM` iff a needed allocation fails; allocated offsets are kept; on success all three are non-zero; a newly allocated field is zero in every hart's scratch area and a field not newly allocated keeps its value; heap, counts, registers and handler do not change |
| FdtIrqchip.Hooked | lib/utils/irqchip/fdt_irqchip_tubitak.c:166-169 | without a hook the descriptor is the parsed one |
| FdtIrqchip.ColdInit | lib/utils/irqchip/fdt_irqchip_tubitak.c:133-184 | success iff every step succeeds and the property is non-empty; then the hooked descriptor is stored and the table is the walk's result; a failing step returns its own code (offset allocation or descriptor allocation `SBI_ENOMEM`, a parse failure its code, a controller-init failure its code, an absent or empty property `SBI_EINVAL`); on failure the heap is unchanged; once parsing succeeds the counts, registers and handler flag are those of the controller's cold init on the hooked descriptor, even when a later step fails, and before that they are untouched; the offsets are the guard's |
| FdtIrqchip.GuardIdempotent | lib/utils/irqchip/fdt_irqchip_tubitak.c:139-155 | once all offsets are allocated, later allocation results do not affect the cold init |
| FdtIrqchip.AllocationFailureIsEnomem | lib/utils/irqchip/fdt_irqchip_tubitak.c:139-159 | a failed scratch or heap allocation returns `SBI_ENOMEM` and leaves heap, counts and registers alone |
| FdtIrqchip.HookAppliedIffPresent | lib/utils/irqchip/fdt_irqchip_tubitak.c:161-169 | the stored descriptor is the hook's output when there is a hook, and the parsed one when there is not |
| FdtIrqchip.ColdInitKeepsPointersValid | lib/utils/irqchip/fdt_irqchip_tubitak.c:157-183 | no hart is ever left pointing at a freed or unallocated descriptor |
| FdtIrqchip.ColdInitKeepsConsistent | lib/utils/irqchip/fdt_irqchip_tubitak.c:139-180 | a successful cold init, from a consistent table with offsets allocated in the guard's order, leaves every hart that has a context slot with a data pointer |
| FdtIrqchip.HartData | lib/utils/irqchip/fdt_irqchip_tubitak.c:20-21 | a hart has a descriptor iff its pointer is non-null |
| FdtIrqchip.WarmInit | lib/utils/irqchip/fdt_irqchip_tubitak.c:77-84 | the controller's warm init runs on the hart's descriptor with the M slot minus one as `m_cntx_id` and the S slot minus one as `s_cntx_id`; a hart with both slots zero gets 0 and no writes; a failure writes nothing |
| FdtIrqchip.NamedHartWarmInitDisablesContexts | lib/utils/irqchip/fdt_irqchip_tubitak.c:77-84 | when the hart descriptor's `num_src / 32` is at most `sources / 32` and the stride matches the IE region, a hart whose two slots name distinct real contexts ends warm init with context `mSlot - 1` and context `sSlot - 1` both fully disabled at threshold 7 |
| FdtIrqchip.WarmInitOfSetSlots | lib/utils/irqchip/fdt_irqchip_tubitak.c:77-84 | for slots that are unset or hold real context ids, the glue passes exactly `mSlot - 1` and `sSlot - 1` (-1 for an unset slot) to the controller |
| FdtIrqchip.HartWarmInitDisablesItsContexts | lib/utils/irqchip/fdt_irqchip_tubitak.c:77-84 | under the same two conditions, a hart with a descriptor whose slots are each unset or a real context (only M, only S, or both) warm-inits to 0, each set slot's context ends disabled at threshold 7, and no other register changes |
| FdtIrqchip.UnnamedHartWarmInitIsNoop | lib/utils/irqchip/fdt_irqchip_tubitak.c:77-131 | after a successful cold init, a hart the property never names warm-inits to 0 with no writes |
| FdtIrqchip.FirstColdInitUnnamedHartWarmInitIsNoop | lib/utils/irqchip/fdt_irqchip_tubitak.c:77-155 | on a first successful cold init (context fields not yet allocated, so zeroed by it), a hart the property never names warm-inits to 0 with no writes |
| FdtIrqchip.FdtContextSave | lib/utils/irqchip/fdt_irqchip_tubitak.c:56-64 | the wrapper saves the S-mode context (`sSlot - 1`) when `smode` is set and the M-mode context (`mSlot - 1`) otherwise, min(num, ie_words) enable words |
| FdtIrqchip.FdtContextRestore | lib/utils/irqchip/fdt_irqchip_tubitak.c:66-75 | the wrapper restores the S-mode context (`sSlot - 1`) when `smode` is set and the M-mode context (`mSlot - 1`) otherwise; only the registers change; pointers stay valid and the hart keeps its descriptor |
| FdtIrqchip.ModeContext | lib/utils/irqchip/fdt_irqchip_tubitak.c:60-62 | for a slot in range, the context id chosen is the selected mode's slot minus one (-1 for an unset slot) |
| FdtIrqchip.WrapperRestoreThenSave | lib/utils/irqchip/fdt_irqchip_tubitak.c:56-75 | save after restore through the wrappers returns what was restored |
| FdtIrqchip.ModesIndependent | lib/utils/irqchip/fdt_irqchip_tubitak.c:56-75 | when the hart descriptor's `num_src / 32` is at most `sources / 32`, the stride matches the IE region and the two slots name distinct real contexts, restoring one mode's context leaves the other mode's saved context unchanged |
| Uart.RegisterOffsets | lib/utils/serial/tubitak-uart.c:70-84 | `intr_enable`, `ctrl`, `status`, `rdata`, `wdata` and `fifo_status` sit at bytes 4, 16, 20, 24, 28 and 36 |
| Uart.NcoBits | lib/utils/serial/tubitak-uart.c:91-97 | the NCO value fits in 32 bits |
| Uart.NcoIsFloor | lib/utils/serial/tubitak-uart.c:91-97 | without wrap-around the NCO value is ⌊2^20·baud / clk⌋ |
| Uart.SetNco | lib/utils/serial/tubitak-uart.c:103-106 | the low 16 bits are kept, bits 16-23 take the NCO's low byte, and bits 24-31 are the old bits OR the NCO's second byte |
| Uart.SetNcoOnClearHighByte | lib/utils/serial/tubitak-uart.c:103-106 | when the old top byte is clear, the top half is exactly the NCO's low 16 bits |
| Uart.Setbrg | lib/utils/serial/tubitak-uart.c:99-109 | only `ctrl` changes, and it becomes the NCO update of its old value |
| Uart.Getc | lib/utils/serial/tubitak-uart.c:112-123 | -1 when the receive level is zero, otherwise `rdata` as `int` |
| Uart.GetcMinusOneIffEmpty | lib/utils/serial/tubitak-uart.c:112-123 | for data below 2^31 the result is -1 iff the receive FIFO is empty, and the data otherwise |
| Uart.Putc | lib/utils/serial/tubitak-uart.c:125-132 | a write happens iff the transmit level is below 32; it stores the zero-extended character in `wdata` and nothing else |
| Uart.UartInit | lib/utils/serial/tubitak-uart.c:140-158 | returns 0 and registers the console; interrupts off; `ctrl` = 3, NCO-updated only when clock and baud are both non-zero; nothing else written |
| Uart.InitSetsNcoField | lib/utils/serial/tubitak-uart.c:140-158 | after init with a clock and baud rate, `ctrl` holds 3 in its low half and the NCO's low 16 bits in its high half |

## Findings

| source | as written | input that shows it | evidently intended | confidence | as-written member | corrected member |
|---|---|---|---|---|---|---|
| lib/utils/irqchip/irqchip_tubitak.c:146-147 | the restore loop calls the setter as (value = i, index = priority[i]), swapping its last two arguments | `priority = [5]`, `num = 1`, all registers 0: word 5 gets 0, word 0 stays 0, and a save reads [0] | write `priority[i]` to priority word `i`, so a save after a restore returns what was restored | high, not executed | Irqchip.PriorityRestoreDoesNotRoundTrip | Irqchip.PriorityRestoreThenSave |

## Left out

- Memory-mapped I/O: no volatile semantics, ordering or side effects on read. A register
  holds the last value written, and `readl` of an unwritten register returns 0.
- `unsigned long` and pointers are taken as 64 bits wide, as on RV64; an RV32 build is not
  modelled.
- Addresses are unbounded naturals. Pointer arithmetic that wraps past 2^64 is not modelled.
  Only the `u32` byte offset `0x4 * word_indx` is reduced.
- The device-tree library (`fdt_getprop`, `fdt_node_offset_by_phandle`, `fdt_parent_offset`,
  `fdt_parse_hart_id`) and `sbi_hartid_to_scratch`:
  - they are folded into the `resolve` map, phandle to hart id;
  - a hart without a scratch area is one missing from the `Scratch` map;
  - the property is a list of cells, so "fewer than one cell's bytes" becomes "no cells".
- `fdt_parse_tubitak_ic_node`, `sbi_zalloc`/`sbi_free`, `sbi_scratch_alloc_type_offset`,
  `sbi_domain_root_add_memrange` and `sbi_irqchip_set_irqfn` are services outside this code.
  Their results are inputs in `ColdOracle`. The model takes it that a fresh scratch field
  reads as zero on every hart.
- `tubitak_ic_external_irqfn` (it only returns `SBI_ENODEV`) is represented by the
  `irqfnInstalled` flag.
- `sbi_printf` diagnostics in the probe, and the console registration beyond a flag.
- The `fdt_tubitak_ic_priority_save`/`_restore` wrappers (fdt_irqchip_tubitak.c:42-54). They
  hand a `u8` buffer to `u32` routines, which only a byte-level memory model could describe.
- Unused or commented-out macros and accessors:
  - `EL_OFF_FOR_SRC`, `EL_MASK_FOR_SRC`;
  - `IE_SHIFT_FOR_SRC`, `IE_MASK_FOR_SRC`;
  - `THRESHOLD_BIT_PER_TARGET`, `CONFIG_HAS_THRESHOLD_MASK`;
  - `PLIC_CONTEXT_BASE`/`_STRIDE`;
  - `tubitak_ic_get_ie`/`set_ie`.
  `ID_OFF_FOR_TARGET` is modelled but nothing calls it.
- The platform file, the UART's device-tree glue and the headers:
  `platform/generic/tubitak/tubitak_yonca.c`, `lib/utils/serial/fdt_serial_tubitak.c`,
  `include/sbi_utils/...`. The numeric values of `SBI_EINVAL` (-3), `SBI_ENODEV` (-1000),
  `SBI_ENOMEM` (-1006), `IRQ_S_EXT` (9) and `IRQ_M_EXT` (11) come from OpenSBI's public
  headers, which are not part of this model.
- Concurrency between harts: the cold init and the other entry points are single calls on
  one state.
- The `putc` busy-wait is modelled as one polling step (`None` while the FIFO is full).
  Whether the loop terminates depends on the hardware.
- Probe.ProbeConfig: the priority count is an input (`priorityField`), not extracted from the
  config word. The source masks a 32-bit `u32` with `0x3fff << 32` (an out-of-range shift of
  an `int`), so the extracted value is not determined by the C standard.
- Irqchip.ColdIrqchipInit: requires a source count below 2^31 - 1. The loop counter is an
  `int` and `num_src` is an `unsigned long`, so `i <= num_src` holds through the last pass
  and the `i++` after that pass overflows the `int` unless the count is below 2^31 - 1.
- HartTable.UpdateHartidTable: requires an even number of cells. With an odd count the loop
  reads one cell past the property.
- FdtIrqchip.ColdInit: requires the oracle to return a fresh, non-null descriptor address, a
  source count below 2^31 - 1 and an even cell count. These are the preconditions of the
  members it calls.
- FdtIrqchip.FdtContextSave and FdtIrqchip.FdtContextRestore: require the hart to have a
  descriptor. The source passes a null pointer through, and the callee dereferences it.
- FdtIrqchip.WarmInit: requires every non-null hart pointer to name a live descriptor, which
  `FdtIrqchip.ColdInitKeepsPointersValid` shows the cold init maintains.
- Uart.NcoBits: computes the product `2^20 × baud` modulo 2^64, the RV64 width of
  `unsigned long`. On RV32 it wraps at 2^32 for every baud rate of 4096 or more, and the
  model does not describe that build.
- Uart.NcoBits and Uart.Setbrg: require a non-zero input clock. The only caller checks it,
  and a zero clock would divide by zero.
- Uart.GetcMinusOneIffEmpty: states the iff only for data words below 2^31. A data word of
  0xFFFFFFFF also yields -1, as `Uart.Getc` states.
- Irqchip.ContextRestore, Irqchip.RestoreThenSave and Irqchip.InitThenSave: read-back of the
  enable words is promised only when no enable word is the threshold register.
  `Irqchip.RestoreOfLastTargetLosesEnableWord` shows such aliasing happens on layouts whose
  enable stride overruns the enable region.

=== FILE: fdt_irqchip.dfy ===
/** The device-tree glue around the controller driver: the cold init that allocates the
    per-hart scratch fields once, builds a descriptor, initialises the controller and fills the
    hart table; the per-hart warm init; and the context save and restore entry points that pick
    the hart's M-mode or S-mode context.

    The firmware services the glue calls (scratch-field allocation, heap allocation, node
    parsing, the platform hook, root-domain registration, the property lookup) are not
    modelled: their results are inputs, collected in a `ColdOracle`. */
module FdtIrqchip {
  import opened Machine
  import opened Sbi
  import opened Layout
  import opened Irqchip
  import opened HartTable

  /** The three scratch-field offsets; 0 means "not allocated yet". */
  datatype Offsets = Offsets(ptr: nat, mTarget: nat, sTarget: nat)

  /** Firmware-wide state the glue reads and writes: the scratch offsets, every hart's table
      entry, the heap of allocated descriptors (address to contents), the controller driver's
      layout globals, the register file and whether the interrupt handler is installed. */
  datatype Platform = Platform(offsets: Offsets, scratch: Scratch, heap: map<nat, IcData>,
                               counts: Counts, regs: RegMap, irqfnInstalled: bool)

  /** Results of the calls the cold init makes:
      - `allocPtr`, `allocM`, `allocS`: what each scratch-field allocation returns (0 on failure);
      - `zalloc`: the address of the new descriptor, or `None` when the heap is exhausted;
      - `parseRc`, `parsed`: the node parser's return code and the four fields it fills in;
      - `platInit`: the match entry's platform hook, if it has one;
      - `priorityField`, `memrangeRc`: inputs of the controller's own cold init;
      - `prop`, `resolve`: the `interrupts-extended` cells and the phandle-to-hart lookup. */
  datatype ColdOracle = ColdOracle(allocPtr: nat, allocM: nat, allocS: nat, zalloc: Option<nat>,
                                   parseRc: int, parsed: IcData, platInit: Option<IcData -> IcData>,
                                   priorityField: nat, memrangeRc: int,
                                   prop: Option<seq<nat>>, resolve: map<nat, nat>)

  /** Allocating a scratch field zeroes it in every hart's scratch area. */
  function ZeroPtrs(s: Scratch): (r: Scratch)
    ensures r.Keys == s.Keys
    ensures forall h :: h in r ==> r[h] == s[h].(dataPtr := 0)
  {
    map h | h in s :: s[h].(dataPtr := 0)
  }

  function ZeroMSlots(s: Scratch): (r: Scratch)
    ensures r.Keys == s.Keys
    ensures forall h :: h in r ==> r[h] == s[h].(mSlot := 0)
  {
    map h | h in s :: s[h].(mSlot := 0)
  }

  function ZeroSSlots(s: Scratch): (r: Scratch)
    ensures r.Keys == s.Keys
    ensures forall h :: h in r ==> r[h] == s[h].(sSlot := 0)
  {
    map h | h in s :: s[h].(sSlot := 0)
  }

  /** The allocate-once guard at the top of `fdt_tubitak_ic_cold_init`: each offset still 0
      is allocated (and its field zeroed); the first failed allocation returns
      `SBI_ENOMEM`, keeping the offsets already allocated. */
  function AllocateOffsets(p: Platform, o: ColdOracle): (r: (int, Platform))
    ensures r.0 == SBI_OK || r.0 == SBI_ENOMEM
    ensures r.1.heap == p.heap && r.1.counts == p.counts && r.1.regs == p.regs
    ensures r.1.irqfnInstalled == p.irqfnInstalled && r.1.scratch.Keys == p.scratch.Keys
    ensures p.offsets.ptr != 0 ==> r.1.offsets.ptr == p.offsets.ptr
    ensures p.offsets.mTarget != 0 ==> r.1.offsets.mTarget == p.offsets.mTarget
    ensures p.offsets.sTarget != 0 ==> r.1.offsets.sTarget == p.offsets.sTarget
    ensures r.0 == SBI_OK ==> r.1.offsets.ptr != 0 && r.1.offsets.mTarget != 0 && r.1.offsets.sTarget != 0
    ensures forall h :: h in r.1.scratch ==> r.1.scratch[h].dataPtr in {0, p.scratch[h].dataPtr}
    ensures p.offsets.ptr == 0 && r.1.offsets.ptr != 0 ==> forall h :: h in r.1.scratch ==> r.1.scratch[h].dataPtr == 0
    ensures p.offsets.mTarget == 0 && r.1.offsets.mTarget != 0 ==> forall h :: h in r.1.scratch ==> r.1.scratch[h].mSlot == 0
    ensures p.offsets.sTarget == 0 && r.1.offsets.sTarget != 0 ==> forall h :: h in r.1.scratch ==> r.1.scratch[h].sSlot == 0
    ensures (p.offsets.ptr != 0 || r.1.offsets.ptr == 0) ==>
              forall h :: h in r.1.scratch ==> r.1.scratch[h].dataPtr == p.scratch[h].dataPtr
    ensures (p.offsets.mTarget != 0 || r.1.offsets.mTarget == 0) ==>
              forall h :: h in r.1.scratch ==> r.1.scratch[h].mSlot == p.scratch[h].mSlot
    ensures (p.offsets.sTarget != 0 || r.1.offsets.sTarget == 0) ==>
              forall h :: h in r.1.scratch ==> r.1.scratch[h].sSlot == p.scratch[h].sSlot
    ensures r.0 == SBI_ENOMEM <==> ((p.offsets.ptr == 0 && o.allocPtr == 0) ||
                                   (p.offsets.mTarget == 0 && o.allocM == 0) ||
                                   (p.offsets.sTarget == 0 && o.allocS == 0))
  {
    if p.offsets.ptr == 0 && o.allocPtr == 0 then (SBI_ENOMEM, p)
    else
      var p1 := if p.offsets.ptr != 0 then p
                else p.(offsets := p.offsets.(ptr := o.allocPtr), scratch := ZeroPtrs(p.scratch));
      if p1.offsets.mTarget == 0 && o.allocM == 0 then (SBI_ENOMEM, p1)
      else
        var p2 := if p1.offsets.mTarget != 0 then p1
                  else p1.(offsets := p1.offsets.(mTarget := o.allocM), scratch := ZeroMSlots(p1.scratch));
        if p2.offsets.sTarget == 0 && o.allocS == 0 then (SBI_ENOMEM, p2)
        else
          var p3 := if p2.offsets.sTarget != 0 then p2
                    else p2.(offsets := p2.offsets.(sTarget := o.allocS), scratch := ZeroSSlots(p2.scratch));
          (SBI_OK, p3)
  }

  /** The descriptor after the platform hook, which runs only when the match entry has one. */
  function Hooked(o: ColdOracle): (d: IcData)
    ensures o.platInit.None? ==> d == o.parsed
  {
    if o.platInit.Some? then o.platInit.value(o.parsed) else o.parsed
  }

  /** Every non-null hart data pointer names a live descriptor. */
  predicate PointersValid(p: Platform) {
    forall h :: h in p.scratch && p.scratch[h].dataPtr != 0 ==> p.scratch[h].dataPtr in p.heap
  }

  /** What the oracle must deliver for the run to be defined: a fresh, non-null descriptor
      address, a source count the controller's `int` loop counter can pass without overflow,
      and an even
      number of `interrupts-extended` cells. */
  predicate OracleWellFormed(p: Platform, o: ColdOracle) {
    (o.zalloc.Some? ==> o.zalloc.value != 0 && o.zalloc.value !in p.heap) &&
    Hooked(o).numSrc < 0x7FFF_FFFF &&
    (o.prop.Some? ==> |o.prop.value| % 2 == 0)
  }

  /** `fdt_tubitak_ic_cold_init`.  After the guard it allocates the descriptor, parses the
      node into it, runs the platform hook if there is one, initialises the controller and
      fills the hart table; a failure in any of the last three frees the descriptor and
      returns that step's code.  The controller init's effects on the globals, the registers
      and the handler stay in place even when a later step fails. */
  function ColdInit(p: Platform, o: ColdOracle): (r: (int, Platform))
    requires OracleWellFormed(p, o)
    ensures r.1.scratch.Keys == p.scratch.Keys
    ensures p.offsets.ptr != 0 ==> r.1.offsets.ptr == p.offsets.ptr
    ensures p.offsets.mTarget != 0 ==> r.1.offsets.mTarget == p.offsets.mTarget
    ensures p.offsets.sTarget != 0 ==> r.1.offsets.sTarget == p.offsets.sTarget
    ensures r.0 != SBI_OK ==> r.1.heap == p.heap && r.1.scratch == AllocateOffsets(p, o).1.scratch
    ensures r.0 == SBI_OK ==> o.zalloc.Some? && r.1.heap == p.heap[o.zalloc.value := Hooked(o)]
    ensures r.0 == SBI_OK ==>
              o.prop.Some? &&
              r.1.scratch == Walk(AllocateOffsets(p, o).1.scratch, o.prop.value, o.resolve, o.zalloc.value, |o.prop.value| / 2)
    ensures r.0 == SBI_OK <==> AllocateOffsets(p, o).0 == SBI_OK && o.zalloc.Some? && o.parseRc == 0 &&
                               o.memrangeRc == 0 && o.prop.Some? && |o.prop.value| > 0
    ensures AllocateOffsets(p, o).0 != SBI_OK ==> r.0 == SBI_ENOMEM
    ensures AllocateOffsets(p, o).0 == SBI_OK && o.zalloc.None? ==> r.0 == SBI_ENOMEM
    ensures AllocateOffsets(p, o).0 == SBI_OK && o.zalloc.Some? && o.parseRc != 0 ==> r.0 == o.parseRc
    ensures AllocateOffsets(p, o).0 == SBI_OK && o.zalloc.Some? && o.parseRc == 0 && o.memrangeRc != 0 ==>
              r.0 == o.memrangeRc
    ensures (AllocateOffsets(p, o).0 == SBI_OK && o.zalloc.Some? && o.parseRc == 0 && o.memrangeRc == 0 &&
             (o.prop.None? || |o.prop.value| == 0)) ==> r.0 == SBI_EINVAL
    ensures r.1.offsets == AllocateOffsets(p, o).1.offsets
    ensures (AllocateOffsets(p, o).0 != SBI_OK || o.zalloc.None? || o.parseRc != 0) ==>
              r.1.counts == p.counts && r.1.regs == p.regs && r.1.irqfnInstalled == p.irqfnInstalled
    ensures AllocateOffsets(p, o).0 == SBI_OK && o.zalloc.Some? && o.parseRc == 0 ==>
              var chip := ColdIrqchipInit(p.counts, p.regs, Some(Hooked(o)), o.priorityField, o.memrangeRc, p.irqfnInstalled);
              r.1.counts == chip.counts && r.1.regs == chip.regs && r.1.irqfnInstalled == chip.irqfnInstalled
  {
    var (rc0, p0) := AllocateOffsets(p, o);
    if rc0 != SBI_OK then (rc0, p0)
    else if o.zalloc.None? then (SBI_ENOMEM, p0)
    else if o.parseRc != 0 then (o.parseRc, p0)
    else
      var addr := o.zalloc.value;
      var d := Hooked(o);
      var chip := ColdIrqchipInit(p0.counts, p0.regs, Some(d), o.priorityField, o.memrangeRc, p0.irqfnInstalled);
      var p1 := p0.(counts := chip.counts, regs := chip.regs, irqfnInstalled := chip.irqfnInstalled);
      if chip.rc != SBI_OK then (chip.rc, p1)
      else
        var (rc2, table) := UpdateHartidTable(p1.scratch, o.prop, o.resolve, addr);
        if rc2 != SBI_OK then (rc2, p1)
        else (SBI_OK, p1.(scratch := table, heap := p1.heap[addr := d]))
  }

  /** Once all three offsets are allocated, the allocation results no longer matter: the
      guard is idempotent across repeated cold inits. */
  lemma GuardIdempotent(p: Platform, o: ColdOracle, a1: nat, a2: nat, a3: nat)
    requires OracleWellFormed(p, o)
    requires p.offsets.ptr != 0 && p.offsets.mTarget != 0 && p.offsets.sTarget != 0
    ensures ColdInit(p, o.(allocPtr := a1, allocM := a2, allocS := a3)) == ColdInit(p, o)
  {
    assert AllocateOffsets(p, o) == (SBI_OK, p);
    assert AllocateOffsets(p, o.(allocPtr := a1, allocM := a2, allocS := a3)) == (SBI_OK, p);
  }

  /** A failed scratch or heap allocation is reported as `SBI_ENOMEM` and changes neither
      the heap, the controller nor the registers. */
  lemma AllocationFailureIsEnomem(p: Platform, o: ColdOracle)
    requires OracleWellFormed(p, o)
    requires (p.offsets.ptr == 0 && o.allocPtr == 0) || (p.offsets.mTarget == 0 && o.allocM == 0) ||
             (p.offsets.sTarget == 0 && o.allocS == 0) || o.zalloc.None?
    ensures var r := ColdInit(p, o);
            r.0 == SBI_ENOMEM && r.1.heap == p.heap && r.1.counts == p.counts && r.1.regs == p.regs
  {
  }

  /** A successful cold init stores the descriptor the hook produced, and the hook runs iff
      the match entry carries one. */
  lemma HookAppliedIffPresent(p: Platform, o: ColdOracle)
    requires OracleWellFormed(p, o) && ColdInit(p, o).0 == SBI_OK
    ensures var stored := ColdInit(p, o).1.heap[o.zalloc.value];
            (o.platInit.Some? ==> stored == o.platInit.value(o.parsed)) &&
            (o.platInit.None? ==> stored == o.parsed)
  {
  }

  /** The cold init never leaves a hart pointing at freed or unallocated memory. */
  lemma ColdInitKeepsPointersValid(p: Platform, o: ColdOracle)
    requires OracleWellFormed(p, o) && PointersValid(p)
    ensures PointersValid(ColdInit(p, o).1)
  {
    var s0 := AllocateOffsets(p, o).1.scratch;
    var r := ColdInit(p, o);
    if r.0 == SBI_OK {
      var addr, cells := o.zalloc.value, o.prop.value;
      forall h | h in r.1.scratch && r.1.scratch[h].dataPtr != 0
        ensures r.1.scratch[h].dataPtr in r.1.heap
      {
        WalkMatchesReference(s0, cells, o.resolve, addr, |cells| / 2, h);
      }
    }
  }

  /** A successful cold init leaves the hart table consistent (every hart with a context slot
      set has a data pointer), given a consistent table and offsets allocated in the guard's
      order (no context field before the pointer field). */
  lemma ColdInitKeepsConsistent(p: Platform, o: ColdOracle)
    requires OracleWellFormed(p, o) && Consistent(p.scratch)
    requires p.offsets.ptr == 0 ==> p.offsets.mTarget == 0 && p.offsets.sTarget == 0
    requires ColdInit(p, o).0 == SBI_OK
    ensures Consistent(ColdInit(p, o).1.scratch)
  {
    var s0 := AllocateOffsets(p, o).1.scratch;
    assert Consistent(s0) by {
      forall h | h in s0 && (s0[h].mSlot != 0 || s0[h].sSlot != 0)
        ensures s0[h].dataPtr != 0
      {
        assert p.offsets.ptr != 0;
      }
    }
    WalkPreservesConsistency(s0, o.prop.value, o.resolve, o.zalloc.value, |o.prop.value| / 2);
  }

  /* Per-hart entry points */

  /** The descriptor a hart's data pointer names (`None` for a null pointer). */
  function HartData(p: Platform, hart: nat): (r: Option<IcData>)
    requires hart in p.scratch && PointersValid(p)
    ensures r.Some? <==> p.scratch[hart].dataPtr != 0
  {
    var ptr := p.scratch[hart].dataPtr;
    if ptr == 0 then None else Some(p.heap[ptr])
  }

  /** `fdt_tubitak_ic_warm_init` on hart `hart`: the controller's warm init with the hart's
      descriptor and its two decoded context ids, each converted from `long` to `int`. */
  function WarmInit(p: Platform, hart: nat): (r: Written)
    requires hart in p.scratch && PointersValid(p) && Valid(p.counts)
    ensures r == WarmIrqchipInit(p.counts, p.regs, HartData(p, hart),
                                 Int32(p.scratch[hart].mSlot - 1), Int32(p.scratch[hart].sSlot - 1))
    ensures p.scratch[hart].mSlot == 0 && p.scratch[hart].sSlot == 0 ==> r == Written(SBI_OK, p.regs)
    ensures r.rc != SBI_OK ==> r.regs == p.regs
  {
    var e := p.scratch[hart];
    WarmIrqchipInit(p.counts, p.regs, HartData(p, hart), Int32(MContext(e)), Int32(SContext(e)))
  }

  /** A hart the property does not name keeps both context slots at zero when they start
      zeroed, so after a successful cold init its warm init writes nothing and returns 0. */
  lemma UnnamedHartWarmInitIsNoop(p: Platform, o: ColdOracle, hart: nat)
    requires OracleWellFormed(p, o) && PointersValid(p) && Valid(p.counts)
    requires o.priorityField < U32_MOD
    requires hart in p.scratch
    requires AllocateOffsets(p, o).1.scratch[hart].mSlot == 0 && AllocateOffsets(p, o).1.scratch[hart].sSlot == 0
    requires ColdInit(p, o).0 == SBI_OK
    requires !Named(AllocateOffsets(p, o).1.scratch, o.prop.value, o.resolve, hart, |o.prop.value| / 2)
    ensures var q := ColdInit(p, o).1;
            PointersValid(q) && Valid(q.counts) && WarmInit(q, hart) == Written(SBI_OK, q.regs)
  {
    var p0 := AllocateOffsets(p, o).1;
    var q := ColdInit(p, o).1;
    ColdInitKeepsPointersValid(p, o);
    UnnamedHartUnchanged(p0.scratch, o.prop.value, o.resolve, o.zalloc.value, |o.prop.value| / 2, hart);
    assert q.scratch[hart] == p0.scratch[hart];
  }

  /** On the first cold init, which allocates both context fields and so zeroes every hart's
      slots, a hart the property never names warm-inits to 0 with no writes. */
  lemma FirstColdInitUnnamedHartWarmInitIsNoop(p: Platform, o: ColdOracle, hart: nat)
    requires OracleWellFormed(p, o) && PointersValid(p) && Valid(p.counts)
    requires o.priorityField < U32_MOD
    requires hart in p.scratch
    requires p.offsets.mTarget == 0 && p.offsets.sTarget == 0
    requires ColdInit(p, o).0 == SBI_OK
    requires !Named(AllocateOffsets(p, o).1.scratch, o.prop.value, o.resolve, hart, |o.prop.value| / 2)
    ensures var q := ColdInit(p, o).1;
            PointersValid(q) && Valid(q.counts) && WarmInit(q, hart) == Written(SBI_OK, q.regs)
  {
    var p0 := AllocateOffsets(p, o).1;
    assert p0.scratch[hart].mSlot == 0 && p0.scratch[hart].sSlot == 0;
    UnnamedHartWarmInitIsNoop(p, o, hart);
  }

  /** A hart with a descriptor whose two slots name distinct real contexts ends its warm init
      with the M-mode context (`mSlot - 1`) and the S-mode context (`sSlot - 1`) both fully
      disabled at threshold 7. */
  lemma NamedHartWarmInitDisablesContexts(p: Platform, hart: nat)
    requires hart in p.scratch && PointersValid(p) && Valid(p.counts)
    requires p.scratch[hart].dataPtr != 0
    requires WordsFitStride(p.counts, HartData(p, hart).value) && StrideMatchesRegion(p.counts)
    requires var e := p.scratch[hart];
             1 <= e.mSlot <= p.counts.targets && 1 <= e.sSlot <= p.counts.targets && e.mSlot != e.sSlot
    ensures var d, e, r := HartData(p, hart).value, p.scratch[hart], WarmInit(p, hart);
            r.rc == SBI_OK &&
            ContextSave(p.counts, r.regs, d, e.mSlot - 1, IeWords(d)) == Saved(Fill(IeWords(d), 0), WARM_THRESHOLD) &&
            ContextSave(p.counts, r.regs, d, e.sSlot - 1, IeWords(d)) == Saved(Fill(IeWords(d), 0), WARM_THRESHOLD)
  {
    HartWarmInitDisablesItsContexts(p, hart);
  }

  /** A hart with a descriptor whose slots are each unset (0) or a real context ends its warm
      init with 0, each set slot's context fully disabled at threshold 7, and no register
      written outside the set slots' contexts; in particular a hart with only an M-mode or
      only an S-mode context has just that context initialised. */
  lemma HartWarmInitDisablesItsContexts(p: Platform, hart: nat)
    requires hart in p.scratch && PointersValid(p) && Valid(p.counts)
    requires p.scratch[hart].dataPtr != 0
    requires WordsFitStride(p.counts, HartData(p, hart).value) && StrideMatchesRegion(p.counts)
    requires var e := p.scratch[hart];
             0 <= e.mSlot <= p.counts.targets && 0 <= e.sSlot <= p.counts.targets
    ensures var d, e, r := HartData(p, hart).value, p.scratch[hart], WarmInit(p, hart);
            r.rc == SBI_OK &&
            (e.mSlot != 0 ==>
               ContextSave(p.counts, r.regs, d, e.mSlot - 1, IeWords(d)) == Saved(Fill(IeWords(d), 0), WARM_THRESHOLD)) &&
            (e.sSlot != 0 ==>
               ContextSave(p.counts, r.regs, d, e.sSlot - 1, IeWords(d)) == Saved(Fill(IeWords(d), 0), WARM_THRESHOLD)) &&
            forall a :: (e.mSlot == 0 || !InitTouches(p.counts, d, e.mSlot - 1, a)) &&
                        (e.sSlot == 0 || !InitTouches(p.counts, d, e.sSlot - 1, a)) ==>
                          Read(r.regs, a) == Read(p.regs, a)
  {
    var e := p.scratch[hart];
    var d := HartData(p, hart).value;
    var m, sc := e.mSlot - 1, e.sSlot - 1;
    WarmInitOfSetSlots(p, hart);
    var r := WarmInit(p, hart);
    assert r == WarmIrqchipInit(p.counts, p.regs, Some(d), m, sc);
    WarmInitDisablesRealContexts(p.counts, p.regs, d, m, sc);
    WarmInitFootprint(p.counts, p.regs, d, m, sc);
  }

  /** For slots that are unset or hold real context ids, the warm init entry point is the
      controller's warm init on the hart's descriptor with the decoded M-mode and S-mode ids
      (-1 for an unset slot). */
  lemma WarmInitOfSetSlots(p: Platform, hart: nat)
    requires hart in p.scratch && PointersValid(p) && Valid(p.counts)
    requires p.scratch[hart].dataPtr != 0
    requires var e := p.scratch[hart];
             0 <= e.mSlot <= p.counts.targets && 0 <= e.sSlot <= p.counts.targets
    ensures var e := p.scratch[hart];
            WarmInit(p, hart) == WarmIrqchipInit(p.counts, p.regs, Some(HartData(p, hart).value), e.mSlot - 1, e.sSlot - 1)
  {
    var e := p.scratch[hart];
    assert Int32(e.mSlot - 1) == e.mSlot - 1 && Int32(e.sSlot - 1) == e.sSlot - 1;
  }

  /** The context id the save and restore wrappers use: S-mode or M-mode, as asked. */
  function ModeContext(e: HartScratch, smode: bool): (r: int)
    ensures var slot := if smode then e.sSlot else e.mSlot;
            0 <= slot <= 0x8000_0000 ==> r == slot - 1
  {
    Int32(if smode then SContext(e) else MContext(e))
  }

  /** `fdt_tubitak_ic_context_save` on hart `hart`, which must have a descriptor. */
  function FdtContextSave(p: Platform, hart: nat, smode: bool, num: nat): (r: Saved)
    requires hart in p.scratch && PointersValid(p) && Valid(p.counts)
    requires p.scratch[hart].dataPtr != 0
    ensures |r.enable| == ClampWords(HartData(p, hart).value, num)
    ensures smode ==> r == ContextSave(p.counts, p.regs, HartData(p, hart).value, Int32(p.scratch[hart].sSlot - 1), num)
    ensures !smode ==> r == ContextSave(p.counts, p.regs, HartData(p, hart).value, Int32(p.scratch[hart].mSlot - 1), num)
  {
    var e := p.scratch[hart];
    ContextSave(p.counts, p.regs, HartData(p, hart).value, ModeContext(e, smode), num)
  }

  /** `fdt_tubitak_ic_context_restore` on hart `hart`; only the registers change. */
  function FdtContextRestore(p: Platform, hart: nat, smode: bool, enable: seq<bv32>, threshold: bv32, num: nat): (r: Platform)
    requires hart in p.scratch && PointersValid(p) && Valid(p.counts)
    requires p.scratch[hart].dataPtr != 0
    requires ClampWords(HartData(p, hart).value, num) <= |enable|
    ensures r == p.(regs := r.regs)
    ensures smode ==> r.regs == ContextRestore(p.counts, p.regs, HartData(p, hart).value,
                                               Int32(p.scratch[hart].sSlot - 1), enable, threshold, num)
    ensures !smode ==> r.regs == ContextRestore(p.counts, p.regs, HartData(p, hart).value,
                                                Int32(p.scratch[hart].mSlot - 1), enable, threshold, num)
    ensures PointersValid(r) && HartData(r, hart) == HartData(p, hart)
  {
    var e := p.scratch[hart];
    p.(regs := ContextRestore(p.counts, p.regs, HartData(p, hart).value, ModeContext(e, smode), enable, threshold, num))
  }

  /** Restoring a hart's context through the wrapper and saving the same mode again returns
      what was restored, when that context's enable words do not reach its threshold. */
  lemma WrapperRestoreThenSave(p: Platform, hart: nat, smode: bool, enable: seq<bv32>, threshold: bv32, num: nat)
    requires hart in p.scratch && PointersValid(p) && Valid(p.counts)
    requires p.scratch[hart].dataPtr != 0
    requires ClampWords(HartData(p, hart).value, num) <= |enable|
    requires NoAlias(p.counts, HartData(p, hart).value, ModeContext(p.scratch[hart], smode),
                     ClampWords(HartData(p, hart).value, num))
    ensures FdtContextSave(FdtContextRestore(p, hart, smode, enable, threshold, num), hart, smode, num)
         == Saved(enable[..ClampWords(HartData(p, hart).value, num)], threshold)
  {
    var d := HartData(p, hart).value;
    RestoreThenSave(p.counts, p.regs, d, ModeContext(p.scratch[hart], smode), enable, threshold, num);
  }

  /** On a well-formed layout, restoring a hart's S-mode context does not disturb its M-mode
      context (and vice versa) when the two context ids are distinct real targets. */
  lemma ModesIndependent(p: Platform, hart: nat, smode: bool, enable: seq<bv32>, threshold: bv32, num: nat)
    requires hart in p.scratch && PointersValid(p) && Valid(p.counts)
    requires p.scratch[hart].dataPtr != 0
    requires ClampWords(HartData(p, hart).value, num) <= |enable|
    requires WordsFitStride(p.counts, HartData(p, hart).value)
    requires StrideMatchesRegion(p.counts)
    requires var e := p.scratch[hart];
             0 <= ModeContext(e, true) < p.counts.targets && 0 <= ModeContext(e, false) < p.counts.targets &&
             ModeContext(e, true) != ModeContext(e, false)
    ensures FdtContextSave(FdtContextRestore(p, hart, smode, enable, threshold, num), hart, !smode, num)
         == FdtContextSave(p, hart, !smode, num)
  {
    var d := HartData(p, hart).value;
    var e := p.scratch[hart];
    var here, other := ModeContext(e, smode), ModeContext(e, !smode);
    var q := FdtContextRestore(p, hart, smode, enable, threshold, num);
    assert q.regs == ContextRestore(p.counts, p.regs, d, here, enable, threshold, num);
    assert q.scratch == p.scratch && q.counts == p.counts && HartData(q, hart) == Some(d);
    RestoreKeepsOtherContext(p.counts, p.regs, d, here, other, enable, threshold, num, num);
  }
}

=== FILE: hart_table.dfy ===
/** The per-hart table the device-tree glue keeps in each hart's scratch area: a pointer to
    the controller descriptor and the hart's M-mode and S-mode context ids.

    A context id `ctx` is stored as `ctx + 1`, so the zero a freshly allocated scratch field
    holds reads back as -1, "no context".  The table is filled from the controller node's
    `interrupts-extended` property, a list of (phandle, hwirq) cell pairs in which pair `k`
    describes context `k`. */
module HartTable {
  import opened Machine
  import opened Sbi

  /** The three scratch fields of one hart: descriptor pointer (0 is null) and the two
      encoded context slots (`long` values). */
  datatype HartScratch = HartScratch(dataPtr: nat, mSlot: int, sSlot: int)

  /** Scratch areas by hart id; a hart id without an entry has no scratch area. */
  type Scratch = map<nat, HartScratch>

  /** The value `tubitak_ic_set_hart_{m,s}context` stores for context `ctx`. */
  function EncodeContext(ctx: int): int {
    ctx + 1
  }

  /** The value `tubitak_ic_get_hart_{m,s}context` returns for a stored slot. */
  function DecodeContext(slot: int): int {
    slot - 1
  }

  /** Encoding and decoding are inverse in both directions, and an unwritten (zero) slot
      decodes to -1. */
  lemma SlotEncodingRoundTrip(ctx: int, slot: int)
    ensures DecodeContext(EncodeContext(ctx)) == ctx
    ensures EncodeContext(DecodeContext(slot)) == slot
    ensures DecodeContext(0) == -1
    ensures DecodeContext(slot) == -1 <==> slot == 0
  {
  }

  function MContext(h: HartScratch): int {
    DecodeContext(h.mSlot)
  }

  function SContext(h: HartScratch): int {
    DecodeContext(h.sSlot)
  }

  function SetMContext(h: HartScratch, ctx: int): (r: HartScratch)
    ensures MContext(r) == ctx
    ensures SContext(r) == SContext(h) && r.dataPtr == h.dataPtr
  {
    h.(mSlot := EncodeContext(ctx))
  }

  function SetSContext(h: HartScratch, ctx: int): (r: HartScratch)
    ensures SContext(r) == ctx
    ensures MContext(r) == MContext(h) && r.dataPtr == h.dataPtr
  {
    h.(sSlot := EncodeContext(ctx))
  }

  /* The interrupts-extended walk */

  /** The hart that pair `k` names, if its phandle resolves to a hart id (`resolve` stands
      for the phandle lookup, the parent-node lookup and the hart-id parse together) and that
      hart has a scratch area. */
  function PairHart(s: Scratch, cells: seq<nat>, resolve: map<nat, nat>, k: nat): (r: Option<nat>)
    requires 2 * k + 1 < |cells|
    ensures r.Some? ==> r.value in s
  {
    var phandle := cells[2 * k];
    if phandle in resolve && resolve[phandle] in s then Some(resolve[phandle]) else None
  }

  /** One iteration of the loop in `fdt_tubitak_ic_update_hartid_table` for pair `k`: an
      unresolved pair changes nothing; a resolved one sets the hart's data pointer and, for
      `IRQ_M_EXT` or `IRQ_S_EXT`, that mode's context to `k`. */
  function Step(s: Scratch, cells: seq<nat>, resolve: map<nat, nat>, ptr: nat, k: nat): (r: Scratch)
    requires 2 * k + 1 < |cells|
    ensures r.Keys == s.Keys
    ensures forall h :: h in s && PairHart(s, cells, resolve, k) != Some(h) ==> r[h] == s[h]
    ensures PairHart(s, cells, resolve, k).Some? ==>
              var h, hwirq := PairHart(s, cells, resolve, k).value, cells[2 * k + 1];
              r[h].dataPtr == ptr &&
              r[h].mSlot == (if hwirq == IRQ_M_EXT then EncodeContext(k) else s[h].mSlot) &&
              r[h].sSlot == (if hwirq == IRQ_S_EXT then EncodeContext(k) else s[h].sSlot)
  {
    match PairHart(s, cells, resolve, k)
    case None => s
    case Some(h) =>
      var e := s[h].(dataPtr := ptr);
      var hwirq := cells[2 * k + 1];
      s[h := if hwirq == IRQ_M_EXT then SetMContext(e, k)
             else if hwirq == IRQ_S_EXT then SetSContext(e, k)
             else e]
  }

  /** The first `n` iterations of the loop, in order. */
  function Walk(s: Scratch, cells: seq<nat>, resolve: map<nat, nat>, ptr: nat, n: nat): (r: Scratch)
    requires 2 * n <= |cells|
    ensures r.Keys == s.Keys
  {
    if n == 0 then s
    else Step(Walk(s, cells, resolve, ptr, n - 1), cells, resolve, ptr, n - 1)
  }

  /* Reference definition: the table entry a hart ends with, stated per hart */

  predicate NamesMode(s: Scratch, cells: seq<nat>, resolve: map<nat, nat>, h: nat, irq: nat, k: nat)
    requires 2 * k + 1 < |cells|
  {
    PairHart(s, cells, resolve, k) == Some(h) && cells[2 * k + 1] == irq
  }

  /** The last of the first `n` pairs that names hart `h` with interrupt `irq`, if any. */
  function LastMatch(s: Scratch, cells: seq<nat>, resolve: map<nat, nat>, h: nat, irq: nat, n: nat): (r: Option<nat>)
    requires 2 * n <= |cells|
    ensures r.Some? ==> r.value < n && NamesMode(s, cells, resolve, h, irq, r.value)
    ensures r.Some? ==> forall k :: r.value < k < n ==> !NamesMode(s, cells, resolve, h, irq, k)
    ensures r.None? ==> forall k :: 0 <= k < n ==> !NamesMode(s, cells, resolve, h, irq, k)
  {
    if n == 0 then None
    else if NamesMode(s, cells, resolve, h, irq, n - 1) then Some(n - 1)
    else LastMatch(s, cells, resolve, h, irq, n - 1)
  }

  /** Some of the first `n` pairs names hart `h`, whatever its hwirq. */
  predicate Named(s: Scratch, cells: seq<nat>, resolve: map<nat, nat>, h: nat, n: nat)
    requires 2 * n <= |cells|
  {
    exists k :: 0 <= k < n && PairHart(s, cells, resolve, k) == Some(h)
  }

  /** The slot a mode ends with: the encoding of the last pair naming the hart in that mode,
      or the slot it started with. */
  function ExpectedSlot(s: Scratch, cells: seq<nat>, resolve: map<nat, nat>, h: nat, irq: nat, n: nat, start: int): int
    requires 2 * n <= |cells|
  {
    match LastMatch(s, cells, resolve, h, irq, n)
    case Some(k) => EncodeContext(k)
    case None => start
  }

  /** The walk agrees with the per-hart reference: for every hart with a scratch area, the
      data pointer is `ptr` iff some pair names the hart, and each mode's slot holds the last
      pair naming it in that mode (later entries overwrite earlier ones). */
  lemma {:induction false} WalkMatchesReference(s: Scratch, cells: seq<nat>, resolve: map<nat, nat>, ptr: nat, n: nat, h: nat)
    requires 2 * n <= |cells| && h in s
    ensures var r := Walk(s, cells, resolve, ptr, n);
            r[h].dataPtr == (if Named(s, cells, resolve, h, n) then ptr else s[h].dataPtr) &&
            r[h].mSlot == ExpectedSlot(s, cells, resolve, h, IRQ_M_EXT, n, s[h].mSlot) &&
            r[h].sSlot == ExpectedSlot(s, cells, resolve, h, IRQ_S_EXT, n, s[h].sSlot)
  {
    if n > 0 {
      WalkMatchesReference(s, cells, resolve, ptr, n - 1, h);
      var prev := Walk(s, cells, resolve, ptr, n - 1);
      StepKeepsResolution(s, prev, cells, resolve, n - 1);
      if PairHart(s, cells, resolve, n - 1) == Some(h) {
        assert Named(s, cells, resolve, h, n);
      } else {
        if Named(s, cells, resolve, h, n) {
          var k :| 0 <= k < n && PairHart(s, cells, resolve, k) == Some(h);
          assert Named(s, cells, resolve, h, n - 1);
        }
        if Named(s, cells, resolve, h, n - 1) {
          var k :| 0 <= k < n - 1 && PairHart(s, cells, resolve, k) == Some(h);
          assert Named(s, cells, resolve, h, n);
        }
      }
    }
  }

  /** Resolution depends only on which harts have scratch areas, and the walk never changes
      that set. */
  lemma StepKeepsResolution(s: Scratch, s': Scratch, cells: seq<nat>, resolve: map<nat, nat>, k: nat)
    requires 2 * k + 1 < |cells| && s'.Keys == s.Keys
    ensures PairHart(s', cells, resolve, k) == PairHart(s, cells, resolve, k)
  {
  }

  /** A hart that no resolved pair names keeps its whole scratch entry. */
  lemma UnnamedHartUnchanged(s: Scratch, cells: seq<nat>, resolve: map<nat, nat>, ptr: nat, n: nat, h: nat)
    requires 2 * n <= |cells| && h in s
    requires !Named(s, cells, resolve, h, n)
    ensures Walk(s, cells, resolve, ptr, n)[h] == s[h]
  {
    WalkMatchesReference(s, cells, resolve, ptr, n, h);
    forall k | 0 <= k < n
      ensures !NamesMode(s, cells, resolve, h, IRQ_M_EXT, k) && !NamesMode(s, cells, resolve, h, IRQ_S_EXT, k)
    {
    }
  }

  /** `fdt_tubitak_ic_update_hartid_table`.  `prop` is the `interrupts-extended` property as
      a cell list (`None` when absent); a list of no cells is "shorter than one cell".  An odd
      cell count would make the loop read one cell past the property, so it is excluded. */
  function UpdateHartidTable(s: Scratch, prop: Option<seq<nat>>, resolve: map<nat, nat>, ptr: nat): (r: (int, Scratch))
    requires prop.Some? ==> |prop.value| % 2 == 0
    ensures r.0 == SBI_EINVAL <==> prop.None? || |prop.value| == 0
    ensures r.0 == SBI_OK || r.0 == SBI_EINVAL
    ensures r.0 != SBI_OK ==> r.1 == s
    ensures r.1.Keys == s.Keys
  {
    if prop.None? || |prop.value| == 0 then (SBI_EINVAL, s)
    else (SBI_OK, Walk(s, prop.value, resolve, ptr, |prop.value| / 2))
  }

  /** Pairs (A, S_EXT), (A, M_EXT) with A resolving to hart 2 give hart 2 S-context 0 and
      M-context 1, and point it at the descriptor. */
  lemma TwoPairExample(ptr: nat, a: nat)
    ensures var s := map[2 := HartScratch(0, 0, 0)];
            var r := UpdateHartidTable(s, Some([a, IRQ_S_EXT, a, IRQ_M_EXT]), map[a := 2], ptr);
            r.0 == SBI_OK && SContext(r.1[2]) == 0 && MContext(r.1[2]) == 1 && r.1[2].dataPtr == ptr
  {
    var s := map[2 := HartScratch(0, 0, 0)];
    var cells, resolve := [a, IRQ_S_EXT, a, IRQ_M_EXT], map[a := 2];
    assert Walk(s, cells, resolve, ptr, 0) == s;
    var s1 := Walk(s, cells, resolve, ptr, 1);
    assert PairHart(s, cells, resolve, 0) == Some(2);
    assert s1 == Step(s, cells, resolve, ptr, 0);
    assert s1[2] == HartScratch(ptr, 0, 1);
    assert PairHart(s1, cells, resolve, 1) == Some(2);
    assert Walk(s, cells, resolve, ptr, 2)[2] == HartScratch(ptr, 2, 1);
  }

  /** Every hart with a context slot set also has a data pointer. */
  predicate Consistent(s: Scratch) {
    forall h :: h in s && (s[h].mSlot != 0 || s[h].sSlot != 0) ==> s[h].dataPtr != 0
  }

  /** With a non-null descriptor the walk keeps the table consistent: every slot it sets
      comes with the pointer. */
  lemma {:induction false} WalkPreservesConsistency(s: Scratch, cells: seq<nat>, resolve: map<nat, nat>, ptr: nat, n: nat)
    requires 2 * n <= |cells| && ptr != 0 && Consistent(s)
    ensures Consistent(Walk(s, cells, resolve, ptr, n))
  {
    if n > 0 {
      WalkPreservesConsistency(s, cells, resolve, ptr, n - 1);
    }
  }
}

=== FILE: irqchip.dfy ===
/** The controller driver proper: per-context save, restore and initialisation of the
    enable words and threshold register, the warm and cold init entry points, and the
    priority-word save and restore helpers.

    Every operation takes the layout `Counts` in force (the driver's three globals) and the
    register file, and returns the new register file instead of writing through pointers. */
module Irqchip {
  import opened Machine
  import opened Layout
  import opened Probe
  import opened Sbi

  /** `struct tubitak_ic_data`: base address and size of the register window, and the
      source and target counts the platform reported. */
  datatype IcData = IcData(addr: nat, size: nat, numSrc: nat, numTargets: nat)

  /** A return code together with the register file the call leaves behind. */
  datatype Written = Written(rc: int, regs: RegMap)

  /** What `tubitak_ic_context_save` stores through its `enable` and `threshold` pointers. */
  datatype Saved = Saved(enable: seq<bv32>, threshold: bv32)

  /** The outcome of the cold init: return code, the layout globals, the register file and
      whether the external-interrupt handler was installed. */
  datatype ColdResult = ColdResult(rc: int, counts: Counts, regs: RegMap, irqfnInstalled: bool)

  /** `ie_words`: `num_src / 32 + 1`, stored in a `u32`.  Short of wrap-around it is the
      number of 32-bit words that hold one enable bit for each of the ids 0 to `num_src`. */
  function IeWords(ic: IcData): (r: nat)
    ensures r < U32_MOD
    ensures ic.numSrc < U32_MOD ==> 1 <= r && 32 * (r - 1) <= ic.numSrc < 32 * r
  {
    U32(ic.numSrc / 32 + 1)
  }

  /** The enable words the driver's `num_src` calls for fit in one per-target stride of the
      layout: `num_src / 32` does not exceed the probed `sources / 32`.  The two counts come
      from different places (the device tree and the config register) and need not agree. */
  predicate WordsFitStride(c: Counts, ic: IcData) {
    ic.numSrc / 32 <= c.sources / 32
  }

  /** The word count a save or restore actually transfers: `num`, lowered to `ie_words`. */
  function ClampWords(ic: IcData, num: nat): (k: nat)
    ensures k <= num && k <= IeWords(ic)
    ensures k == num || k == IeWords(ic)
  {
    if num > IeWords(ic) then IeWords(ic) else num
  }

  /** The `u32` target id an accessor receives when passed the `int` context id. */
  function TargetOf(ctx: int): (t: nat)
    ensures 0 <= ctx < U32_MOD ==> t == ctx
  {
    U32(ctx)
  }

  /** Address of the first enable word of context `ctx`. */
  function IeBase(c: Counts, ic: IcData, ctx: int): nat
    requires Valid(c)
  {
    ic.addr + IeOffForTarget(c, TargetOf(ctx))
  }

  /** Address of enable word `i` of context `ctx` (`0x4 * word_indx` is a `u32` product). */
  function IeWordAddr(c: Counts, ic: IcData, ctx: int, i: nat): nat
    requires Valid(c)
  {
    WordAddr(IeBase(c, ic, ctx), i)
  }

  /** Address of the threshold register of context `ctx`. */
  function ThreshAddr(c: Counts, ic: IcData, ctx: int): nat
    requires Valid(c)
  {
    ic.addr + ThreshOffForTarget(c, TargetOf(ctx))
  }

  /** The first `k` enable words of context `ctx` are distinct registers, none of them the
      context's threshold register. */
  predicate NoAlias(c: Counts, ic: IcData, ctx: int, k: nat)
    requires Valid(c)
  {
    k <= 0x4000_0000 &&
    forall i :: 0 <= i < k ==> IeWordAddr(c, ic, ctx, i) != ThreshAddr(c, ic, ctx)
  }

  /* Context save and restore */

  /** `tubitak_ic_context_save`: reads the first `min(num, ie_words)` enable words and the
      threshold of context `ctx`. */
  function ContextSave(c: Counts, regs: RegMap, ic: IcData, ctx: int, num: nat): (r: Saved)
    requires Valid(c)
    ensures |r.enable| == ClampWords(ic, num)
    ensures forall i :: 0 <= i < |r.enable| ==> r.enable[i] == Read(regs, IeWordAddr(c, ic, ctx, i))
    ensures r.threshold == Read(regs, ThreshAddr(c, ic, ctx))
  {
    var k := ClampWords(ic, num);
    var enable := seq(k, i requires 0 <= i < k => Read(regs, IeWordAddr(c, ic, ctx, i)));
    Saved(enable, Read(regs, ThreshAddr(c, ic, ctx)))
  }

  /** `tubitak_ic_context_restore`: writes the first `min(num, ie_words)` entries of `enable`
      to the context's enable words in ascending order, then writes the threshold. */
  function ContextRestore(c: Counts, regs: RegMap, ic: IcData, ctx: int, enable: seq<bv32>,
                          threshold: bv32, num: nat): (r: RegMap)
    requires Valid(c) && ClampWords(ic, num) <= |enable|
    ensures Read(r, ThreshAddr(c, ic, ctx)) == threshold
    ensures forall a :: a != ThreshAddr(c, ic, ctx) &&
                        (forall i :: 0 <= i < ClampWords(ic, num) ==> a != IeWordAddr(c, ic, ctx, i))
                        ==> Read(r, a) == Read(regs, a)
    ensures NoAlias(c, ic, ctx, ClampWords(ic, num)) ==>
              forall i :: 0 <= i < ClampWords(ic, num) ==> Read(r, IeWordAddr(c, ic, ctx, i)) == enable[i]
  {
    var k := ClampWords(ic, num);
    var stored := StoreWords(regs, IeBase(c, ic, ctx), enable[..k]);
    assert forall a :: (forall i :: 0 <= i < k ==> a != IeWordAddr(c, ic, ctx, i)) ==> Read(stored, a) == Read(regs, a) by {
      forall a | forall i :: 0 <= i < k ==> a != IeWordAddr(c, ic, ctx, i)
        ensures Read(stored, a) == Read(regs, a)
      {
        forall i | 0 <= i < |enable[..k]|
          ensures a != WordAddr(IeBase(c, ic, ctx), i)
        {
          assert a != IeWordAddr(c, ic, ctx, i);
        }
      }
    }
    Write(stored, ThreshAddr(c, ic, ctx), threshold)
  }

  /** Restoring a context and saving it again gives back what was restored, provided the
      enable words and the threshold register do not overlap. */
  lemma RestoreThenSave(c: Counts, regs: RegMap, ic: IcData, ctx: int, enable: seq<bv32>,
                        threshold: bv32, num: nat)
    requires Valid(c) && ClampWords(ic, num) <= |enable|
    requires NoAlias(c, ic, ctx, ClampWords(ic, num))
    ensures ContextSave(c, ContextRestore(c, regs, ic, ctx, enable, threshold, num), ic, ctx, num)
         == Saved(enable[..ClampWords(ic, num)], threshold)
  {
  }

  /** Saving a context and restoring what was saved leaves every register as it was. */
  lemma SaveThenRestoreChangesNothing(c: Counts, regs: RegMap, ic: IcData, ctx: int, num: nat)
    requires Valid(c) && ClampWords(ic, num) <= 0x4000_0000
    ensures var s := ContextSave(c, regs, ic, ctx, num);
            forall a :: Read(ContextRestore(c, regs, ic, ctx, s.enable, s.threshold, num), a) == Read(regs, a)
  {
    var s := ContextSave(c, regs, ic, ctx, num);
    var k := ClampWords(ic, num);
    var r := ContextRestore(c, regs, ic, ctx, s.enable, s.threshold, num);
    var stored := StoreWords(regs, IeBase(c, ic, ctx), s.enable[..k]);
    assert r == Write(stored, ThreshAddr(c, ic, ctx), s.threshold);
    forall a
      ensures Read(r, a) == Read(regs, a)
    {
      if a == ThreshAddr(c, ic, ctx) {
      } else if i :| 0 <= i < k && a == IeWordAddr(c, ic, ctx, i) {
        assert Read(stored, WordAddr(IeBase(c, ic, ctx), i)) == s.enable[..k][i];
      }
    }
  }

  /** When the driver's enable words fit the layout's stride and the stride fits the
      enable region, the enable words of a real target never reach its threshold register. */
  lemma NoAliasWhenStrideFits(c: Counts, ic: IcData, ctx: int, num: nat)
    requires Valid(c) && WordsFitStride(c, ic)
    requires StrideMatchesRegion(c)
    requires 0 <= ctx < c.targets
    ensures NoAlias(c, ic, ctx, ClampWords(ic, num))
  {
    var k := ClampWords(ic, num);
    assert IeWords(ic) <= c.sources / 32 + 1;
    TargetRegistersInsideRegions(c, ctx);
    forall i | 0 <= i < k
      ensures IeWordAddr(c, ic, ctx, i) != ThreshAddr(c, ic, ctx)
    {
      assert 4 * i < IeLenPerTarget(c);
      assert IeWordAddr(c, ic, ctx, i) == ic.addr + IeOffForTarget(c, ctx) + 4 * i;
    }
  }

  /** Two different targets of a well-formed layout use disjoint registers: no enable word or
      threshold of one is an enable word or threshold of the other. */
  lemma ContextsDisjoint(c: Counts, ic: IcData, ctx1: int, ctx2: int)
    requires Valid(c) && WordsFitStride(c, ic)
    requires StrideMatchesRegion(c)
    requires 0 <= ctx1 < c.targets && 0 <= ctx2 < c.targets && ctx1 != ctx2
    ensures ThreshAddr(c, ic, ctx1) != ThreshAddr(c, ic, ctx2)
    ensures forall i :: 0 <= i < IeWords(ic) ==> IeWordAddr(c, ic, ctx1, i) != ThreshAddr(c, ic, ctx2)
    ensures forall i, j :: 0 <= i < IeWords(ic) && 0 <= j < IeWords(ic) ==>
              IeWordAddr(c, ic, ctx1, i) != IeWordAddr(c, ic, ctx2, j)
  {
    var n := IeWords(ic);
    var stride := IeLenPerTarget(c);
    assert n <= c.sources / 32 + 1;
    TargetRegistersInsideRegions(c, ctx1);
    TargetRegistersInsideRegions(c, ctx2);
    forall i | 0 <= i < n
      ensures IeWordAddr(c, ic, ctx1, i) == ic.addr + IeOffForTarget(c, ctx1) + 4 * i
      ensures IeWordAddr(c, ic, ctx2, i) == ic.addr + IeOffForTarget(c, ctx2) + 4 * i
      ensures 4 * i < stride
    {
    }
    if ctx1 < ctx2 {
      StrideFits(ctx1, ctx2, stride);
    } else {
      StrideFits(ctx2, ctx1, stride);
    }
  }

  /** With 32 sources and 4 targets the enable stride overruns the enable region, and the
      second enable word of target 3 is its own threshold register: restoring enable words
      `[0, 5]` with threshold 7 and saving again reads `[0, 7]`. */
  lemma RestoreOfLastTargetLosesEnableWord()
    ensures var c, ic := Counts(4, 32, 16), IcData(0, 0x1000, 32, 4);
            Valid(c) &&
            ContextSave(c, ContextRestore(c, map[], ic, 3, [0, 5], 7, 2), ic, 3, 2) == Saved([0, 7], 7)
  {
    var c, ic := Counts(4, 32, 16), IcData(0, 0x1000, 32, 4);
    IeStrideOverrunsRegionExample();
    assert IeWords(ic) == 2 && ClampWords(ic, 2) == 2;
    assert IeWordAddr(c, ic, 3, 1) == ThreshAddr(c, ic, 3);
    assert IeWordAddr(c, ic, 3, 0) != ThreshAddr(c, ic, 3);
    var r := ContextRestore(c, map[], ic, 3, [0, 5], 7, 2);
    var stored := StoreWords(map[], IeBase(c, ic, 3), [0, 5]);
    assert [0, 5][..2] == [0, 5];
    assert Read(stored, IeWordAddr(c, ic, 3, 0)) == 0;
    var s := ContextSave(c, r, ic, 3, 2);
    assert s.enable == [0, 7];
  }

  /** Without `WordsFitStride` targets overlap even on a layout whose stride matches its
      region: with the default counts (40 sources, an 8-byte stride) and `num_src = 64`,
      `ie_words` is 3 and the third enable word of target 0 is the first of target 1. */
  lemma OversizedSourceCountOverlapsNextTarget()
    ensures var c, ic := DEFAULT_COUNTS, IcData(0, 0x1000, 64, 4);
            Valid(c) && StrideMatchesRegion(c) && !WordsFitStride(c, ic) && IeWords(ic) == 3 &&
            IeWordAddr(c, ic, 0, 2) == IeWordAddr(c, ic, 1, 0) && NoAlias(c, ic, 0, 3)
  {
    DefaultLayout();
  }

  /** In that overlap, restoring `[0, 0, 5]` to target 0 makes a save of target 1 read `[5]`. */
  lemma OversizedRestoreOverwritesNextTarget()
    ensures var c, ic := DEFAULT_COUNTS, IcData(0, 0x1000, 64, 4);
            Valid(c) &&
            ContextSave(c, ContextRestore(c, map[], ic, 0, [0, 0, 5], 7, 3), ic, 1, 1).enable == [5]
  {
    var c, ic := DEFAULT_COUNTS, IcData(0, 0x1000, 64, 4);
    OversizedSourceCountOverlapsNextTarget();
    assert ClampWords(ic, 3) == 3;
    var r := ContextRestore(c, map[], ic, 0, [0, 0, 5], 7, 3);
    assert Read(r, IeWordAddr(c, ic, 1, 0)) == 5;
  }

  /* Context init and warm init */

  /** `n` copies of `v`. */
  function Fill(n: nat, v: bv32): (r: seq<bv32>)
    ensures |r| == n
    ensures forall i :: 0 <= i < n ==> r[i] == v
  {
    seq(n, _ => v)
  }

  /** The value every enable word receives: all sources on, or all off. */
  function EnableValue(enable: bool): bv32 {
    if enable then 0xffff_ffff else 0
  }

  /** `tubitak_ic_context_init`: rejects a null descriptor or a negative context id, and
      otherwise sets all `ie_words` enable words of the context to all-ones or all-zeros and
      then writes the threshold. */
  function ContextInit(c: Counts, regs: RegMap, ic: Option<IcData>, ctx: int, enable: bool,
                       threshold: bv32): (r: Written)
    requires Valid(c)
    ensures r.rc == SBI_EINVAL <==> ic.None? || ctx < 0
    ensures r.rc == SBI_OK || r.rc == SBI_EINVAL
    ensures r.rc != SBI_OK ==> r.regs == regs
    ensures r.rc == SBI_OK ==> Read(r.regs, ThreshAddr(c, ic.value, ctx)) == threshold
  {
    if ic.None? || ctx < 0 then Written(SBI_EINVAL, regs)
    else
      var d := ic.value;
      var fill := Fill(IeWords(d), EnableValue(enable));
      Written(SBI_OK, Write(StoreWords(regs, IeBase(c, d, ctx), fill), ThreshAddr(c, d, ctx), threshold))
  }

  /** A successful context init is a context restore of `ie_words` copies of the enable
      value. */
  lemma InitIsRestoreOfFill(c: Counts, regs: RegMap, ic: IcData, ctx: int, enable: bool, threshold: bv32)
    requires Valid(c) && ctx >= 0
    ensures ContextInit(c, regs, Some(ic), ctx, enable, threshold).regs
         == ContextRestore(c, regs, ic, ctx, Fill(IeWords(ic), EnableValue(enable)), threshold, IeWords(ic))
  {
    var fill := Fill(IeWords(ic), EnableValue(enable));
    assert fill[..ClampWords(ic, IeWords(ic))] == fill;
  }

  /** After a successful context init, saving the context reads the enable value in every
      word and the threshold that was written. */
  lemma InitThenSave(c: Counts, regs: RegMap, ic: IcData, ctx: int, enable: bool, threshold: bv32, num: nat)
    requires Valid(c) && ctx >= 0
    requires NoAlias(c, ic, ctx, IeWords(ic))
    ensures ContextSave(c, ContextInit(c, regs, Some(ic), ctx, enable, threshold).regs, ic, ctx, num)
         == Saved(Fill(ClampWords(ic, num), EnableValue(enable)), threshold)
  {
    var n := IeWords(ic);
    InitIsRestoreOfFill(c, regs, ic, ctx, enable, threshold);
    assert ClampWords(ic, n) == n;
  }

  /** The threshold the warm init gives both contexts of a hart. */
  const WARM_THRESHOLD: bv32 := 0x7

  /** `tubitak_ic_warm_irqchip_init`: initialises the M-mode context, then the S-mode context,
      each with all sources disabled and threshold 7; a negative id skips that context, and
      the first failure is returned at once. */
  function WarmIrqchipInit(c: Counts, regs: RegMap, ic: Option<IcData>, mCtx: int, sCtx: int): (r: Written)
    requires Valid(c)
    ensures mCtx < 0 && sCtx < 0 ==> r == Written(SBI_OK, regs)
    ensures r.rc == SBI_OK || r.rc == SBI_EINVAL
    ensures r.rc == SBI_EINVAL <==> ic.None? && (mCtx >= 0 || sCtx >= 0)
    ensures r.rc != SBI_OK ==> r.regs == regs
  {
    var first := if mCtx > -1 then ContextInit(c, regs, ic, mCtx, false, WARM_THRESHOLD)
                 else Written(SBI_OK, regs);
    if first.rc != SBI_OK then first
    else if sCtx > -1 then ContextInit(c, first.regs, ic, sCtx, false, WARM_THRESHOLD)
    else first
  }

  /** For a hart with two distinct real contexts, the warm init succeeds and leaves both
      contexts with every enable word cleared and threshold 7. */
  lemma WarmInitDisablesBothContexts(c: Counts, regs: RegMap, ic: IcData, mCtx: int, sCtx: int)
    requires Valid(c) && WordsFitStride(c, ic)
    requires StrideMatchesRegion(c)
    requires 0 <= mCtx < c.targets && 0 <= sCtx < c.targets && mCtx != sCtx
    ensures var r := WarmIrqchipInit(c, regs, Some(ic), mCtx, sCtx);
            r.rc == SBI_OK &&
            ContextSave(c, r.regs, ic, mCtx, IeWords(ic)) == Saved(Fill(IeWords(ic), 0), WARM_THRESHOLD) &&
            ContextSave(c, r.regs, ic, sCtx, IeWords(ic)) == Saved(Fill(IeWords(ic), 0), WARM_THRESHOLD)
  {
    var n := IeWords(ic);
    var first := ContextInit(c, regs, Some(ic), mCtx, false, WARM_THRESHOLD);
    var second := ContextInit(c, first.regs, Some(ic), sCtx, false, WARM_THRESHOLD);
    assert WarmIrqchipInit(c, regs, Some(ic), mCtx, sCtx) == second;
    NoAliasWhenStrideFits(c, ic, mCtx, n);
    NoAliasWhenStrideFits(c, ic, sCtx, n);
    InitThenSave(c, regs, ic, mCtx, false, WARM_THRESHOLD, n);
    InitThenSave(c, first.regs, ic, sCtx, false, WARM_THRESHOLD, n);
    InitKeepsOtherContext(c, first.regs, ic, sCtx, mCtx, false, WARM_THRESHOLD, n);
  }

  /** On a well-formed layout, restoring one context leaves what a save of any other real
      context reads unchanged. */
  lemma RestoreKeepsOtherContext(c: Counts, regs: RegMap, ic: IcData, ctx: int, other: int,
                                 enable: seq<bv32>, threshold: bv32, num: nat, num2: nat)
    requires Valid(c) && WordsFitStride(c, ic)
    requires StrideMatchesRegion(c)
    requires 0 <= ctx < c.targets && 0 <= other < c.targets && ctx != other
    requires ClampWords(ic, num) <= |enable|
    ensures ContextSave(c, ContextRestore(c, regs, ic, ctx, enable, threshold, num), ic, other, num2)
         == ContextSave(c, regs, ic, other, num2)
  {
    var r := ContextRestore(c, regs, ic, ctx, enable, threshold, num);
    var k := ClampWords(ic, num);
    ContextsDisjoint(c, ic, ctx, other);
    ContextsDisjoint(c, ic, other, ctx);
    var before := ContextSave(c, regs, ic, other, num2);
    var after := ContextSave(c, r, ic, other, num2);
    forall i | 0 <= i < |after.enable|
      ensures after.enable[i] == before.enable[i]
    {
      var a := IeWordAddr(c, ic, other, i);
      assert forall j :: 0 <= j < k ==> a != IeWordAddr(c, ic, ctx, j);
    }
    var t := ThreshAddr(c, ic, other);
    assert forall j :: 0 <= j < k ==> t != IeWordAddr(c, ic, ctx, j);
  }

  /** The registers a successful context init writes: the context's `ie_words` enable words
      and its threshold. */
  predicate InitTouches(c: Counts, ic: IcData, ctx: int, a: nat)
    requires Valid(c)
  {
    a == ThreshAddr(c, ic, ctx) || Covers(IeBase(c, ic, ctx), IeWords(ic), a)
  }

  /** A successful context init changes only the registers it touches, and what it leaves in
      them does not depend on the register file it started from. */
  lemma ContextInitFootprint(c: Counts, r1: RegMap, r2: RegMap, ic: IcData, ctx: int, enable: bool, threshold: bv32)
    requires Valid(c) && ctx >= 0
    ensures forall a :: !InitTouches(c, ic, ctx, a) ==>
              Read(ContextInit(c, r1, Some(ic), ctx, enable, threshold).regs, a) == Read(r1, a)
    ensures forall a :: InitTouches(c, ic, ctx, a) ==>
              Read(ContextInit(c, r1, Some(ic), ctx, enable, threshold).regs, a)
              == Read(ContextInit(c, r2, Some(ic), ctx, enable, threshold).regs, a)
  {
    var base := IeBase(c, ic, ctx);
    var fill := Fill(IeWords(ic), EnableValue(enable));
    StoreWordsOverwrites(r1, r2, base, fill);
    forall a | !InitTouches(c, ic, ctx, a)
      ensures Read(StoreWords(r1, base, fill), a) == Read(r1, a)
    {
      assert forall i :: 0 <= i < |fill| ==> a != WordAddr(base, i);
    }
  }

  /** On a well-formed layout, initialising one context leaves what a save of any other
      real context reads unchanged. */
  lemma InitKeepsOtherContext(c: Counts, regs: RegMap, ic: IcData, ctx: int, other: int, enable: bool,
                              threshold: bv32, num: nat)
    requires Valid(c) && WordsFitStride(c, ic)
    requires StrideMatchesRegion(c)
    requires 0 <= ctx < c.targets && 0 <= other < c.targets && ctx != other
    ensures ContextSave(c, ContextInit(c, regs, Some(ic), ctx, enable, threshold).regs, ic, other, num)
         == ContextSave(c, regs, ic, other, num)
  {
    var r := ContextInit(c, regs, Some(ic), ctx, enable, threshold).regs;
    ContextsDisjoint(c, ic, ctx, other);
    ContextsDisjoint(c, ic, other, ctx);
    ContextInitFootprint(c, regs, regs, ic, ctx, enable, threshold);
    var before := ContextSave(c, regs, ic, other, num);
    var after := ContextSave(c, r, ic, other, num);
    forall i | 0 <= i < |after.enable|
      ensures after.enable[i] == before.enable[i]
    {
      var a := IeWordAddr(c, ic, other, i);
      assert !Covers(IeBase(c, ic, ctx), IeWords(ic), a) by {
        forall j | 0 <= j < IeWords(ic)
          ensures a != WordAddr(IeBase(c, ic, ctx), j)
        {
          assert WordAddr(IeBase(c, ic, ctx), j) == IeWordAddr(c, ic, ctx, j);
        }
      }
    }
    var t := ThreshAddr(c, ic, other);
    assert !Covers(IeBase(c, ic, ctx), IeWords(ic), t) by {
      forall j | 0 <= j < IeWords(ic)
        ensures t != WordAddr(IeBase(c, ic, ctx), j)
      {
        assert WordAddr(IeBase(c, ic, ctx), j) == IeWordAddr(c, ic, ctx, j);
      }
    }
  }

  /** One context's step of the warm init: initialise it when the id is not negative. */
  function WarmStep(c: Counts, regs: RegMap, ic: IcData, ctx: int): (r: RegMap)
    requires Valid(c)
    ensures ctx > -1 ==> r == ContextInit(c, regs, Some(ic), ctx, false, WARM_THRESHOLD).regs
    ensures ctx <= -1 ==> r == regs
  {
    if ctx > -1 then ContextInit(c, regs, Some(ic), ctx, false, WARM_THRESHOLD).regs else regs
  }

  /** Warm init is idempotent: running it a second time returns the same code and leaves
      every register as the first run left it, whether or not the two contexts overlap. */
  lemma WarmInitIdempotent(c: Counts, regs: RegMap, ic: Option<IcData>, mCtx: int, sCtx: int)
    requires Valid(c)
    ensures var once := WarmIrqchipInit(c, regs, ic, mCtx, sCtx);
            var twice := WarmIrqchipInit(c, once.regs, ic, mCtx, sCtx);
            twice.rc == once.rc && forall a :: Read(twice.regs, a) == Read(once.regs, a)
  {
    if ic.Some? {
      var d := ic.value;
      var once := WarmIrqchipInit(c, regs, ic, mCtx, sCtx);
      var twice := WarmIrqchipInit(c, once.regs, ic, mCtx, sCtx);
      var m0 := WarmStep(c, regs, d, mCtx);
      var m1 := WarmStep(c, once.regs, d, mCtx);
      assert once.regs == WarmStep(c, m0, d, sCtx);
      assert twice.regs == WarmStep(c, m1, d, sCtx);
      if mCtx > -1 {
        ContextInitFootprint(c, once.regs, regs, d, mCtx, false, WARM_THRESHOLD);
        ContextInitFootprint(c, regs, once.regs, d, mCtx, false, WARM_THRESHOLD);
      }
      if sCtx > -1 {
        ContextInitFootprint(c, m1, m0, d, sCtx, false, WARM_THRESHOLD);
        ContextInitFootprint(c, m0, m1, d, sCtx, false, WARM_THRESHOLD);
      }
      forall a
        ensures Read(twice.regs, a) == Read(once.regs, a)
      {
        if sCtx > -1 && InitTouches(c, d, sCtx, a) {
        } else if mCtx > -1 && InitTouches(c, d, mCtx, a) {
          assert Read(m1, a) == Read(m0, a);
        } else {
          assert Read(once.regs, a) == Read(m0, a) == Read(regs, a);
        }
      }
    }
  }

  /** With a descriptor, the warm init writes nothing outside the registers of its
      non-negative context ids: a negative id contributes no writes at all. */
  lemma WarmInitFootprint(c: Counts, regs: RegMap, ic: IcData, mCtx: int, sCtx: int)
    requires Valid(c)
    ensures var r := WarmIrqchipInit(c, regs, Some(ic), mCtx, sCtx);
            forall a :: (mCtx < 0 || !InitTouches(c, ic, mCtx, a)) && (sCtx < 0 || !InitTouches(c, ic, sCtx, a)) ==>
                          Read(r.regs, a) == Read(regs, a)
  {
    var m0 := WarmStep(c, regs, ic, mCtx);
    assert WarmIrqchipInit(c, regs, Some(ic), mCtx, sCtx).regs == WarmStep(c, m0, ic, sCtx);
    if mCtx >= 0 {
      ContextInitFootprint(c, regs, regs, ic, mCtx, false, WARM_THRESHOLD);
    }
    if sCtx >= 0 {
      ContextInitFootprint(c, m0, m0, ic, sCtx, false, WARM_THRESHOLD);
    }
  }

  /** With a descriptor, every real context id the warm init is given ends with all its
      enable words cleared and threshold 7, whether the hart has both contexts, only one, or
      the same id twice. */
  lemma WarmInitDisablesRealContexts(c: Counts, regs: RegMap, ic: IcData, mCtx: int, sCtx: int)
    requires Valid(c) && WordsFitStride(c, ic)
    requires StrideMatchesRegion(c)
    requires mCtx < c.targets && sCtx < c.targets
    ensures var r := WarmIrqchipInit(c, regs, Some(ic), mCtx, sCtx);
            r.rc == SBI_OK &&
            (mCtx >= 0 ==> ContextSave(c, r.regs, ic, mCtx, IeWords(ic)) == Saved(Fill(IeWords(ic), 0), WARM_THRESHOLD)) &&
            (sCtx >= 0 ==> ContextSave(c, r.regs, ic, sCtx, IeWords(ic)) == Saved(Fill(IeWords(ic), 0), WARM_THRESHOLD))
  {
    var n := IeWords(ic);
    var m0 := WarmStep(c, regs, ic, mCtx);
    assert WarmIrqchipInit(c, regs, Some(ic), mCtx, sCtx).regs == WarmStep(c, m0, ic, sCtx);
    if mCtx >= 0 && sCtx >= 0 && mCtx != sCtx {
      WarmInitDisablesBothContexts(c, regs, ic, mCtx, sCtx);
    } else if sCtx >= 0 {
      NoAliasWhenStrideFits(c, ic, sCtx, n);
      InitThenSave(c, m0, ic, sCtx, false, WARM_THRESHOLD, n);
    } else if mCtx >= 0 {
      NoAliasWhenStrideFits(c, ic, mCtx, n);
      InitThenSave(c, regs, ic, mCtx, false, WARM_THRESHOLD, n);
    }
  }

  /* Cold init */

  /** The default-priority loop of the cold init as the source writes it: iteration `i`
      (for `i` from 1 to `n`) passes `i` as the value and 0 as the word index, so all `n`
      writes go to the first priority word, and the last one wins. */
  function PriorityLoopAsWritten(regs: RegMap, a: nat, n: nat): (r: RegMap)
    requires n < U32_MOD
    ensures forall b :: b != a ==> Read(r, b) == Read(regs, b)
    ensures n == 0 ==> Read(r, a) == Read(regs, a)
    ensures n > 0 ==> Read(r, a) == n as bv32
  {
    if n == 0 then regs
    else Write(PriorityLoopAsWritten(regs, a, n - 1), a, n as bv32)
  }

  /** `tubitak_ic_cold_irqchip_init`: rejects a null descriptor; otherwise probes the config
      register, installs the external-interrupt handler, runs the priority loop and returns
      the result of adding the register window to the root domain (`memrangeRc`, supplied by
      the caller).  `installed` says whether a handler was installed before the call.  The
      loop counter is an `int` compared against the `unsigned long` source count; its
      increment after the last pass overflows unless the count is below 2^31 - 1. */
  function ColdIrqchipInit(c: Counts, regs: RegMap, ic: Option<IcData>, priorityField: nat,
                           memrangeRc: int, installed: bool): (r: ColdResult)
    requires ic.Some? ==> ic.value.numSrc < 0x7FFF_FFFF
    ensures ic.None? ==> r == ColdResult(SBI_EINVAL, c, regs, installed)
    ensures ic.Some? ==> r.rc == memrangeRc && r.irqfnInstalled
    ensures ic.Some? ==>
              r.counts == ProbeConfig(c, Read(regs, ic.value.addr + CONFIG_OFFSET), priorityField)
    ensures ic.Some? ==> forall b :: b != ic.value.addr + PriorityOffset(r.counts) ==> Read(r.regs, b) == Read(regs, b)
    ensures ic.Some? && ic.value.numSrc > 0 ==>
              Read(r.regs, ic.value.addr + PriorityOffset(r.counts)) == ic.value.numSrc as bv32
    ensures ic.Some? && ic.value.numSrc == 0 ==> r.regs == regs
    ensures Valid(c) && priorityField < U32_MOD ==> Valid(r.counts)
  {
    if ic.None? then ColdResult(SBI_EINVAL, c, regs, installed)
    else
      var d := ic.value;
      var config := Read(regs, d.addr + CONFIG_OFFSET);
      var counts := ProbeConfig(c, config, priorityField);
      ProbePreservesValidIf(c, config, priorityField);
      ColdResult(memrangeRc, counts, PriorityLoopAsWritten(regs, d.addr + PriorityOffset(counts), d.numSrc), true)
  }

  lemma ProbePreservesValidIf(c: Counts, config: bv32, priorityField: nat)
    ensures Valid(c) && priorityField < U32_MOD ==> Valid(ProbeConfig(c, config, priorityField))
  {
    if Valid(c) && priorityField < U32_MOD {
      ProbePreservesValid(c, config, priorityField);
    }
  }

  /** The cold init does not reset the priorities: the first priority word ends up holding
      the source count, and every other priority word keeps its value. */
  lemma ColdInitLeavesPrioritiesSet(c: Counts, regs: RegMap, ic: Option<IcData>, priorityField: nat,
                                    memrangeRc: int, installed: bool, j: nat)
    requires ic.Some? && 1 <= ic.value.numSrc < 0x7FFF_FFFF
    requires 1 <= j < 0x4000_0000
    ensures var r := ColdIrqchipInit(c, regs, ic, priorityField, memrangeRc, installed);
            var base := ic.value.addr + PriorityOffset(r.counts);
            Read(r.regs, base) == ic.value.numSrc as bv32 &&
            Read(r.regs, WordAddr(base, j)) == Read(regs, WordAddr(base, j))
  {
    ColdInitFirstPriorityWord(c, regs, ic, priorityField, memrangeRc, installed);
    ColdInitOtherPriorityWord(c, regs, ic, priorityField, memrangeRc, installed, j);
  }

  /** The first priority word after cold init holds the source count. */
  lemma ColdInitFirstPriorityWord(c: Counts, regs: RegMap, ic: Option<IcData>, priorityField: nat, memrangeRc: int,
                                  installed: bool)
    requires ic.Some? && 1 <= ic.value.numSrc < 0x7FFF_FFFF
    ensures var r := ColdIrqchipInit(c, regs, ic, priorityField, memrangeRc, installed);
            Read(r.regs, ic.value.addr + PriorityOffset(r.counts)) == ic.value.numSrc as bv32
  {
  }

  /** Every priority word other than the first keeps its value through cold init. */
  lemma ColdInitOtherPriorityWord(c: Counts, regs: RegMap, ic: Option<IcData>, priorityField: nat, memrangeRc: int,
                                  installed: bool, j: nat)
    requires ic.Some? && 1 <= ic.value.numSrc < 0x7FFF_FFFF
    requires 1 <= j < 0x4000_0000
    ensures var r := ColdIrqchipInit(c, regs, ic, priorityField, memrangeRc, installed);
            var base := ic.value.addr + PriorityOffset(r.counts);
            Read(r.regs, WordAddr(base, j)) == Read(regs, WordAddr(base, j))
  {
    var r := ColdIrqchipInit(c, regs, ic, priorityField, memrangeRc, installed);
    var base := ic.value.addr + PriorityOffset(r.counts);
    var a := WordAddr(base, j);
    assert a == base + 4 * j;
  }

  /* Priority save and restore */

  /** Address of the first priority word, `PRIORITY_OFF_FOR_SRC(0)` from the base. */
  function PriorityBase(c: Counts, ic: IcData): (a: nat)
    requires Valid(c)
    ensures a == ic.addr + PriorityOffset(c)
  {
    ic.addr + PriorityOffForSrc(c, 0)
  }

  /** `tubitak_ic_priority_save`: the first `num` priority words, unclamped. */
  function PrioritySave(c: Counts, regs: RegMap, ic: IcData, num: nat): (r: seq<bv32>)
    requires Valid(c)
    ensures |r| == num
    ensures forall i :: 0 <= i < num ==> r[i] == Read(regs, WordAddr(PriorityBase(c, ic), i))
  {
    seq(num, i requires 0 <= i < num => Read(regs, WordAddr(PriorityBase(c, ic), i)))
  }

  /** `tubitak_ic_priority_restore` as the source writes it: the setter is called with its
      value and word-index arguments exchanged, so iteration `i` stores the value `i` in the
      word whose index is `priority[i]`. */
  function PriorityRestoreAsWritten(c: Counts, regs: RegMap, ic: IcData, priority: seq<bv32>, num: nat): (r: RegMap)
    requires Valid(c) && num <= |priority| && num < U32_MOD
    ensures forall a :: (forall i :: 0 <= i < num ==> a != WordAddr(PriorityBase(c, ic), priority[i] as nat))
                        ==> Read(r, a) == Read(regs, a)
    ensures num > 0 ==> Read(r, WordAddr(PriorityBase(c, ic), priority[num - 1] as nat)) == (num - 1) as bv32
  {
    if num == 0 then regs
    else
      var prev := PriorityRestoreAsWritten(c, regs, ic, priority, num - 1);
      Write(prev, WordAddr(PriorityBase(c, ic), priority[num - 1] as nat), (num - 1) as bv32)
  }

  /** Priority restore is not the inverse of priority save: saving a priority of 5 from a
      cleared first word and restoring it writes 0 into word 5 and leaves word 0 alone, so a
      second save reads 0 where the first read 5 would have been restored. */
  lemma PriorityRestoreDoesNotRoundTrip(c: Counts, ic: IcData)
    requires Valid(c)
    ensures PrioritySave(c, PriorityRestoreAsWritten(c, map[], ic, [5], 1), ic, 1) == [0]
  {
    var base := PriorityBase(c, ic);
    var r := PriorityRestoreAsWritten(c, map[], ic, [5], 1);
    assert WordAddr(base, 5) != WordAddr(base, 0);
    assert Read(r, WordAddr(base, 0)) == 0;
  }

  /** `tubitak_ic_priority_restore` with the setter's arguments in the intended order:
      `priority[i]` is written to priority word `i`, for `i` from 0 to `num - 1`. */
  function PriorityRestore(c: Counts, regs: RegMap, ic: IcData, priority: seq<bv32>, num: nat): (r: RegMap)
    requires Valid(c) && num <= |priority|
    ensures forall a :: (forall i :: 0 <= i < num ==> a != WordAddr(PriorityBase(c, ic), i))
                        ==> Read(r, a) == Read(regs, a)
  {
    StoreWords(regs, PriorityBase(c, ic), priority[..num])
  }

  /** The corrected restore is undone by a save: saving after restoring gives back the
      restored priorities. */
  lemma PriorityRestoreThenSave(c: Counts, regs: RegMap, ic: IcData, priority: seq<bv32>, num: nat)
    requires Valid(c) && num <= |priority| && num <= 0x4000_0000
    ensures PrioritySave(c, PriorityRestore(c, regs, ic, priority, num), ic, num) == priority[..num]
  {
    var base := PriorityBase(c, ic);
    var r := PriorityRestore(c, regs, ic, priority, num);
    forall i | 0 <= i < num
      ensures Read(r, WordAddr(base, i)) == priority[i]
    {
      assert priority[..num][i] == priority[i];
    }
  }

  /** Saving the priorities and restoring what was saved with the corrected restore leaves
      every register as it was. */
  lemma PrioritySaveThenRestoreChangesNothing(c: Counts, regs: RegMap, ic: IcData, num: nat)
    requires Valid(c) && num <= 0x4000_0000
    ensures forall a :: Read(PriorityRestore(c, regs, ic, PrioritySave(c, regs, ic, num), num), a) == Read(regs, a)
  {
    var base := PriorityBase(c, ic);
    var saved := PrioritySave(c, regs, ic, num);
    var r := PriorityRestore(c, regs, ic, saved, num);
    forall a
      ensures Read(r, a) == Read(regs, a)
    {
      if i :| 0 <= i < num && a == WordAddr(base, i) {
        assert Read(r, WordAddr(base, i)) == saved[..num][i];
      }
    }
  }
}

=== FILE: layout.dfy ===
/** Register-space layout of the interrupt controller, as a pure function of the three
    runtime counts (number of targets, of sources and of priority levels).

    The driver keeps the counts in three globals that the config probe may overwrite;
    here they are a `Counts` value passed explicitly to every layout function. */
module Layout {
  import opened Machine

  /** The values of `plic_target_count`, `plic_source_count` and `plic_priority_count`. */
  datatype Counts = Counts(targets: nat, sources: nat, priorities: nat)

  /** The compiled-in initial values of the three globals. */
  const DEFAULT_COUNTS: Counts := Counts(4, 40, 16)

  /** Validation rules applied by the config probe to each field it reads. */
  predicate TargetCountOk(t: nat) {
    t % 4 == 0 && t >= 4
  }

  predicate SourceCountOk(s: nat) {
    s >= 2
  }

  predicate PriorityCountOk(p: nat) {
    p % 4 == 0 && p >= 2
  }

  /** Every value the globals can hold: the defaults, or values the probe accepted from
      16-bit (targets, sources) and 32-bit (priorities) register fields. */
  predicate Valid(c: Counts) {
    && TargetCountOk(c.targets) && c.targets < 0x1_0000
    && SourceCountOk(c.sources) && c.sources < 0x1_0000
    && PriorityCountOk(c.priorities) && c.priorities < U32_MOD
  }

  function Pow2(n: nat): (r: nat)
    ensures r >= 1
  {
    if n == 0 then 1 else 2 * Pow2(n - 1)
  }

  lemma {:induction false} Pow2Monotonic(a: nat, b: nat)
    requires a <= b
    ensures Pow2(a) <= Pow2(b)
    decreases b
  {
    if a < b {
      Pow2Monotonic(a, b - 1);
    }
  }

  lemma Pow2Of32()
    ensures Pow2(32) == U32_MOD
  {
    assert Pow2(8) == 0x100;
    Pow2Add(8, 8);
    Pow2Add(16, 16);
  }

  /** Number of significant bits of `x`: the highest set bit of a positive `x` is bit `r - 1`. */
  function BitLength(x: nat): (r: nat)
    ensures x > 0 ==> r >= 1
  {
    if x == 0 then 0 else 1 + BitLength(x / 2)
  }

  lemma {:induction false} BitLengthBounds(x: nat)
    requires x > 0
    ensures Pow2(BitLength(x) - 1) <= x < Pow2(BitLength(x))
    decreases x
  {
    if x > 1 {
      BitLengthBounds(x / 2);
    }
  }

  /** `__builtin_clz` on a non-zero 32-bit word: the number of zero bits above the highest set bit. */
  function Clz32(x: nat): (r: nat)
    requires 1 <= x < U32_MOD
    ensures r < 32
    ensures r + BitLength(x) == 32
  {
    var n := BitLength(x);
    assert n <= 32 by {
      BitLengthBounds(x);
      if n > 32 {
        Pow2Monotonic(32, n - 1);
        Pow2Of32();
      }
    }
    32 - n
  }

  /** `LOG2(x)`: the bit width of `unsigned int` minus the leading zeros minus one. */
  function Log2(x: nat): (r: nat)
    requires 1 <= x < U32_MOD
    ensures r < 32
    ensures r + 1 == BitLength(x)
  {
    32 - Clz32(x) - 1
  }

  /** `LOG2` is the floor of the base-2 logarithm: the only `k` with 2^k <= x < 2^(k+1). */
  lemma Log2IsFloorLog(x: nat, k: nat)
    requires 1 <= x < U32_MOD
    ensures Log2(x) == k <==> Pow2(k) <= x < Pow2(k + 1)
  {
    Log2Bounds(x);
    if Pow2(k) <= x < Pow2(k + 1) {
      FloorLogUnique(x, Log2(x), k);
    }
  }

  lemma Log2Bounds(x: nat)
    requires 1 <= x < U32_MOD
    ensures Pow2(Log2(x)) <= x < Pow2(Log2(x) + 1)
  {
    BitLengthBounds(x);
  }

  /** At most one `k` has 2^k <= x < 2^(k+1). */
  lemma FloorLogUnique(x: nat, r: nat, k: nat)
    requires Pow2(r) <= x < Pow2(r + 1)
    requires Pow2(k) <= x < Pow2(k + 1)
    ensures r == k
  {
    if r < k {
      Pow2Monotonic(r + 1, k);
    }
    if k < r {
      Pow2Monotonic(k + 1, r);
    }
  }

  /** `NEXT_MULTIPLY_OF_4(x)`: 4 for zero, otherwise `(x + 3) & ~3` in `unsigned int`;
      clearing the two low bits is rounding down to a multiple of 4. */
  function NextMultipleOf4(x: nat): (r: nat)
    ensures r % 4 == 0
    ensures x == 0 ==> r == 4
    ensures 0 < x && x + 3 < U32_MOD ==> x <= r < x + 4
    ensures x + 3 < U32_MOD ==> r >= 4
  {
    if x > 0 then
      var cleared := (x + 3) - (x + 3) % 4;
      assert (cleared % U32_MOD) % 4 == 0 by {
        assert cleared % 4 == 0;
        assert cleared == (cleared / U32_MOD) * U32_MOD + cleared % U32_MOD;
      }
      U32(cleared)
    else 4
  }

  /** For a positive argument, the result is the least multiple of 4 that is at least `x`. */
  lemma NextMultipleOf4IsLeast(x: nat, m: nat)
    requires 0 < x && x + 3 < U32_MOD
    requires m % 4 == 0 && m >= x
    ensures NextMultipleOf4(x) <= m
  {
  }

  /** For arguments without wrap-around: a multiple of 4 is kept, anything else is rounded up. */
  lemma NextMultipleOf4ByRemainder(x: nat)
    requires x + 3 < U32_MOD
    ensures x > 0 && x % 4 == 0 ==> NextMultipleOf4(x) == x
    ensures x % 4 != 0 ==> NextMultipleOf4(x) == 4 * (x / 4) + 4
  {
    if x > 0 {
      var y := x + 3;
      assert y - y % 4 < U32_MOD;
      if x % 4 == 0 {
        assert y % 4 == 3;
      } else {
        assert y / 4 == x / 4 + 1;
      }
    }
  }

  /* Bit widths and per-target sizes */

  function PriorityBitsPerSrc(c: Counts): (r: nat)
    requires Valid(c)
  {
    Log2(c.priorities)
  }

  function IdBitsPerTarget(c: Counts): (r: nat)
    requires Valid(c)
  {
    Log2(c.sources + 1)
  }

  /** `IE_LEN_PER_TARGET`: the byte stride between the enable words of consecutive targets. */
  function IeLenPerTarget(c: Counts): (r: nat)
    ensures r % 4 == 0 && r >= 4
  {
    4 * (1 + c.sources / 32)
  }

  /* Region lengths */

  const CONFIG_LEN: nat := 8

  /** `PLIC_EL_LEN`: the rounded-down byte count of one bit per source, rounded up to whole
      words (at least one). */
  function ElLen(c: Counts): (r: nat)
    ensures r % 4 == 0
    ensures c.sources / 8 == 0 ==> r == 4
    ensures c.sources / 8 + 3 < U32_MOD ==> r >= 4
    ensures 0 < c.sources / 8 && c.sources / 8 + 3 < U32_MOD ==> c.sources / 8 <= r < c.sources / 8 + 4
  {
    NextMultipleOf4(1 * c.sources / 8)
  }

  /** `PLIC_PRIORITY_LEN`: the rounded-down byte count of one priority field per source,
      rounded up to whole words (at least one). */
  function PriorityLen(c: Counts): (r: nat)
    requires Valid(c)
    ensures r % 4 == 0 && r >= 4
    ensures var floor := c.sources * PriorityBitsPerSrc(c) / 8;
            (floor == 0 ==> r == 4) && (0 < floor ==> floor <= r < floor + 4)
  {
    var b := PriorityBitsPerSrc(c);
    MulMonotonic(b, c.sources, 0x1_0000);
    MulMonotonic(0x1_0000, b, 32);
    NextMultipleOf4(c.sources * b / 8)
  }

  /** `PLIC_IE_LEN`: each target gets the rounded-down byte count of one bit per source,
      rounded up to whole words (at least one word per target). */
  function IeLen(c: Counts): (r: nat)
    ensures r % 4 == 0
    ensures c.sources < 0x1_0000 ==> r >= 4 * c.targets
  {
    var share := NextMultipleOf4(c.sources / 8);
    MultipleOf4Times(c.targets, share);
    MulMonotonic(c.targets, 4, if c.sources < 0x1_0000 then share else 4);
    c.targets * share
  }

  function ThresholdLen(c: Counts): nat {
    c.targets * 4
  }

  function IdLen(c: Counts): nat
    requires Valid(c)
  {
    c.targets * NextMultipleOf4(IdBitsPerTarget(c) / 8)
  }

  /* Region offsets, each the previous offset plus the previous length */

  const CONFIG_OFFSET: nat := 0
  const EL_OFFSET: nat := CONFIG_OFFSET + CONFIG_LEN

  function PriorityOffset(c: Counts): nat {
    EL_OFFSET + ElLen(c)
  }

  function IeOffset(c: Counts): nat
    requires Valid(c)
  {
    PriorityOffset(c) + PriorityLen(c)
  }

  function ThresholdOffset(c: Counts): nat
    requires Valid(c)
  {
    IeOffset(c) + IeLen(c)
  }

  function IdOffset(c: Counts): nat
    requires Valid(c)
  {
    ThresholdOffset(c) + ThresholdLen(c)
  }

  /* Per-target and per-source register addresses (offsets from the controller base) */

  /** `IE_OFF_FOR_SRC_AND_TARGET(0, t)`: the first enable word of target `t`, `t` strides of
      `IE_LEN_PER_TARGET` past the start of the enable region. */
  function IeOffForTarget(c: Counts, t: nat): (r: nat)
    requires Valid(c)
    ensures IeOffset(c) <= r && r % 4 == 0
    ensures t < c.targets ==> r + IeLenPerTarget(c) <= IeOffset(c) + c.targets * IeLenPerTarget(c)
  {
    RegionStartsAligned(c);
    StridedOffset(IeOffset(c), t, c.targets, IeLenPerTarget(c));
    IeOffset(c) + t * IeLenPerTarget(c)
  }

  /** `THRESH_OFF_FOR_TARGET(t)`: one word per target; a real target's word lies inside
      the threshold region. */
  function ThreshOffForTarget(c: Counts, t: nat): (r: nat)
    requires Valid(c)
    ensures r % 4 == 0
    ensures t < c.targets ==> ThresholdOffset(c) <= r && r + 4 <= IdOffset(c)
  {
    RegionStartsAligned(c);
    StridedOffset(ThresholdOffset(c), t, c.targets, 4);
    ThresholdOffset(c) + 4 * t
  }

  /** `ID_OFF_FOR_TARGET(t)`. */
  function IdOffForTarget(c: Counts, t: nat): nat
    requires Valid(c)
  {
    IdOffset(c) + 4 * t
  }

  /** `PRI_PER_REG`: how many priority fields one 32-bit word holds. */
  function PriPerReg(c: Counts): (r: nat)
    requires Valid(c)
    ensures 1 <= r <= 16
  {
    PriorityBitsAtLeast2(c);
    WordDivBounds(PriorityBitsPerSrc(c));
    32 / PriorityBitsPerSrc(c)
  }

  lemma WordDivBounds(b: nat)
    requires 2 <= b <= 32
    ensures 1 <= 32 / b <= 16
  {
    var q := 32 / b;
    assert q * b + 32 % b == 32;
  }

  /** `PRIORITY_OFF_FOR_SRC(s)`. */
  function PriorityOffForSrc(c: Counts, s: nat): nat
    requires Valid(c)
  {
    var k := PriPerReg(c);
    var q: nat := s / k;
    PriorityOffset(c) + 4 * q
  }

  /** `PRIORITY_SHIFT_FOR_SRC(s)` for a source id `s >= 1`. */
  function PriorityShiftForSrc(c: Counts, s: nat): nat
    requires Valid(c) && s >= 1
  {
    var k := PriPerReg(c);
    var slot: nat := (s - 1) % k;
    var width: nat := 32 / k;
    slot * width
  }

  /** `PRIORITY_MASK(s)`: `PriorityBitsPerSrc` one-bits shifted left by the source's shift. */
  function PriorityMask(c: Counts, s: nat): nat
    requires Valid(c) && s >= 1
  {
    var ones: nat := Pow2(PriorityBitsPerSrc(c)) - 1;
    ones * Pow2(PriorityShiftForSrc(c, s))
  }

  lemma PriorityBitsAtLeast2(c: Counts)
    requires Valid(c)
    ensures 2 <= PriorityBitsPerSrc(c) < 32
  {
    var b := PriorityBitsPerSrc(c);
    Log2IsFloorLog(c.priorities, b);
  }

  /* Arithmetic helpers, stated on plain numbers so that no layout definition is in scope */

  /** Any multiple of a multiple of 4 is a multiple of 4. */
  lemma MultipleOf4Times(t: nat, m: nat)
    requires m % 4 == 0
    ensures (t * m) % 4 == 0
  {
    assert t * m == 4 * (t * (m / 4));
  }

  lemma MultipleOf4Product(t: nat, m: nat)
    requires t >= 1 && m >= 1 && m % 4 == 0
    ensures t * m > 0 && (t * m) % 4 == 0
  {
    assert t * m == 4 * (t * (m / 4));
  }

  /** Stepping `t` word-aligned strides from a word-aligned base stays word-aligned, and a
      stride below `n` ends within `n` strides. */
  lemma StridedOffset(base: nat, t: nat, n: nat, stride: nat)
    requires base % 4 == 0 && stride % 4 == 0
    ensures 0 <= t * stride && (base + t * stride) % 4 == 0
    ensures t < n ==> base + t * stride + stride <= base + n * stride
  {
    MultipleOf4Times(t, stride);
    AlignedSum(base, t * stride);
    MulMonotonic(stride, 0, t);
    if t < n {
      StrideFits(t, n, stride);
    }
  }

  /** The enable and threshold regions start on word boundaries, because every region
      before them has a whole number of words. */
  lemma RegionStartsAligned(c: Counts)
    requires Valid(c)
    ensures IeOffset(c) % 4 == 0 && ThresholdOffset(c) % 4 == 0
  {
    AlignedSum(EL_OFFSET, ElLen(c));
    AlignedSum(PriorityOffset(c), PriorityLen(c));
    AlignedSum(IeOffset(c), IeLen(c));
  }

  lemma AlignedSum(a: nat, b: nat)
    requires a % 4 == 0 && b % 4 == 0
    ensures (a + b) % 4 == 0
  {
  }

  lemma MulMonotonic(t: nat, a: nat, b: nat)
    requires a <= b
    ensures t * a <= t * b
  {
  }

  lemma {:induction false} Pow2Add(a: nat, b: nat)
    ensures Pow2(a + b) == Pow2(a) * Pow2(b)
    decreases a
  {
    if a > 0 {
      Pow2Add(a - 1, b);
    }
  }

  /** A field of `b` bits at slot `j < 32 / w` of width `w = 32 / (32 / b)` ends inside the word. */
  lemma SlotFitsInWord(b: nat, j: nat)
    requires 2 <= b <= 32
    requires j < 32 / b
    ensures j * (32 / (32 / b)) + b <= 32
  {
    WordDivBounds(b);
    var k := 32 / b;
    var w := 32 / k;
    DivBounds(32, b);
    DivBounds(32, k);
    SlotFitsProduct(b, k, w, j);
  }

  lemma SlotFitsProduct(b: nat, k: nat, w: nat, j: nat)
    requires b >= 1 && k >= 1 && j < k
    requires k * b <= 32 && k * w <= 32 && 32 < (w + 1) * k
    ensures j * w + b <= 32
  {
    assert b <= w by {
      if w < b {
        MulMonotonic(k, w + 1, b);
        assert false;
      }
    }
    MulMonotonic(w, j, k - 1);
    assert (k - 1) * w == k * w - w;
  }

  /** Euclidean division of naturals, in the product form. */
  lemma DivBounds(a: nat, d: nat)
    requires d >= 1
    ensures (a / d) * d <= a < (a / d + 1) * d
  {
    assert (a / d) * d + a % d == a;
    assert (a / d + 1) * d == (a / d) * d + d;
  }

  lemma MulStrict(a: nat, p: nat)
    requires a >= 1 && p >= 1
    ensures (a - 1) * p < a * p
  {
    assert a * p == (a - 1) * p + p;
  }

  /** Consecutive strides of `stride` bytes, `t < n` of them, fit in `n * stride` bytes. */
  lemma StrideFits(t: nat, n: nat, stride: nat)
    requires t < n
    ensures 0 <= t * stride
    ensures t * stride + stride <= n * stride
  {
    MulMonotonic(stride, 0, t);
    MulMonotonic(stride, t + 1, n);
  }

  /* Properties of the layout */

  /** Every region length is a positive multiple of 4. */
  lemma RegionLengthsArePositiveMultiplesOf4(c: Counts)
    requires Valid(c)
    ensures ElLen(c) > 0 && ElLen(c) % 4 == 0
    ensures PriorityLen(c) > 0 && PriorityLen(c) % 4 == 0
    ensures IeLen(c) > 0 && IeLen(c) % 4 == 0
    ensures ThresholdLen(c) > 0 && ThresholdLen(c) % 4 == 0
    ensures IdLen(c) > 0 && IdLen(c) % 4 == 0
  {
    var b := PriorityBitsPerSrc(c);
    assert c.sources * b <= 0x1_0000 * 32 by {
      MulMonotonic(b, c.sources, 0x1_0000);
      MulMonotonic(0x1_0000, b, 32);
    }
    var n := NextMultipleOf4(c.sources * b / 8);
    assert n > 0;
    MultipleOf4Product(c.targets, NextMultipleOf4(c.sources / 8));
    MultipleOf4Product(c.targets, NextMultipleOf4(IdBitsPerTarget(c) / 8));
    MultipleOf4Product(c.targets, 4);
  }

  /** The regions follow each other in the order config, enable-latch, priority, enable,
      threshold, claim-id; every offset is 4-byte aligned and they strictly increase. */
  lemma OffsetsAlignedAndIncreasing(c: Counts)
    requires Valid(c)
    ensures EL_OFFSET % 4 == 0 && PriorityOffset(c) % 4 == 0 && IeOffset(c) % 4 == 0
    ensures ThresholdOffset(c) % 4 == 0 && IdOffset(c) % 4 == 0
    ensures CONFIG_OFFSET < EL_OFFSET < PriorityOffset(c) < IeOffset(c) < ThresholdOffset(c) < IdOffset(c)
  {
    RegionLengthsArePositiveMultiplesOf4(c);
    AlignedSum(EL_OFFSET, ElLen(c));
    AlignedSum(PriorityOffset(c), PriorityLen(c));
    AlignedSum(IeOffset(c), IeLen(c));
    AlignedSum(ThresholdOffset(c), ThresholdLen(c));
  }

  /** With the default counts 4/40/16 the regions start at 8, 16, 36, 68 and 84. */
  lemma DefaultLayout()
    ensures Valid(DEFAULT_COUNTS)
    ensures EL_OFFSET == 8
    ensures PriorityOffset(DEFAULT_COUNTS) == 16
    ensures IeOffset(DEFAULT_COUNTS) == 36
    ensures ThresholdOffset(DEFAULT_COUNTS) == 68
    ensures IdOffset(DEFAULT_COUNTS) == 84
  {
    Log2IsFloorLog(16, 4);
  }

  /** With 16 priority levels each source has a 4-bit field and a word holds 8 of them:
      source 1 sits at bit 0, source 8 at bit 28 and source 9 back at bit 0.  The word
      macro, however, divides the source id itself, so it puts source 8 in word 1. */
  lemma DefaultPriorityPacking()
    ensures Valid(DEFAULT_COUNTS)
    ensures PriorityBitsPerSrc(DEFAULT_COUNTS) == 4
    ensures PriPerReg(DEFAULT_COUNTS) == 8
    ensures PriorityShiftForSrc(DEFAULT_COUNTS, 1) == 0
    ensures PriorityShiftForSrc(DEFAULT_COUNTS, 8) == 28
    ensures PriorityShiftForSrc(DEFAULT_COUNTS, 9) == 0
    ensures PriorityOffForSrc(DEFAULT_COUNTS, 1) == PriorityOffset(DEFAULT_COUNTS)
    ensures PriorityOffForSrc(DEFAULT_COUNTS, 8) == PriorityOffset(DEFAULT_COUNTS) + 4
    ensures PriorityOffForSrc(DEFAULT_COUNTS, 9) == PriorityOffset(DEFAULT_COUNTS) + 4
  {
    Log2IsFloorLog(16, 4);
  }

  /** The priority region is sized from the rounded-down byte count: nine 4-bit fields need
      36 bits, but the region is one word, and the word macro puts source 9's field in the
      word after it, which is the first enable word of target 0. */
  lemma PriorityLenRoundsDownExample()
    ensures Valid(Counts(4, 9, 16))
    ensures PriorityBitsPerSrc(Counts(4, 9, 16)) == 4
    ensures PriorityLen(Counts(4, 9, 16)) == 4
    ensures 8 * PriorityLen(Counts(4, 9, 16)) < 9 * PriorityBitsPerSrc(Counts(4, 9, 16))
    ensures PriorityOffForSrc(Counts(4, 9, 16), 9) == IeOffForTarget(Counts(4, 9, 16), 0)
  {
    Log2IsFloorLog(16, 4);
  }

  /** Every source's priority field lies inside one 32-bit word, so its mask fits in 32 bits. */
  lemma PriorityFieldFitsInWord(c: Counts, s: nat)
    requires Valid(c) && s >= 1
    ensures PriorityShiftForSrc(c, s) + PriorityBitsPerSrc(c) <= 32
    ensures PriorityMask(c, s) < U32_MOD
  {
    var b := PriorityBitsPerSrc(c);
    PriorityBitsAtLeast2(c);
    var k := PriPerReg(c);
    var j := (s - 1) % k;
    SlotFitsInWord(b, j);
    var sh := PriorityShiftForSrc(c, s);
    assert sh == j * (32 / k);
    Pow2Add(b, sh);
    Pow2Monotonic(b + sh, 32);
    Pow2Of32();
    MulStrict(Pow2(b), Pow2(sh));
  }

  /** `sources / 8` is zero or not a multiple of 4: the case in which the enable region and
      the enable stride agree (see `IeStrideMatchesRegionIff`). */
  predicate StrideMatchesRegion(c: Counts) {
    c.sources / 8 == 0 || (c.sources / 8) % 4 != 0
  }

  /** The enable region holds exactly one per-target stride for every target if and only if
      `sources / 8` is zero or not a multiple of 4; otherwise the region is one word per
      target shorter than the stride the accessors use. */
  lemma IeStrideMatchesRegionIff(c: Counts)
    requires Valid(c)
    ensures IeLen(c) == c.targets * IeLenPerTarget(c) <==> StrideMatchesRegion(c)
    ensures IeLen(c) <= c.targets * IeLenPerTarget(c)
  {
    var q := c.sources / 8;
    var n := NextMultipleOf4(q);
    var stride := IeLenPerTarget(c);
    var t := c.targets;
    assert c.sources / 32 == q / 4;
    assert IeLen(c) == t * n;
    NextMultipleOf4ByRemainder(q);
    if q == 0 || q % 4 != 0 {
      assert n == stride;
    } else {
      assert n + 4 == stride;
    }
    ShareAgainstStride(t, n, stride);
  }

  /** `t` shares of `n` bytes cover `t` strides exactly when the stride is the share, and
      fall short otherwise. */
  lemma ShareAgainstStride(t: nat, n: nat, stride: nat)
    requires t > 0 && (stride == n || stride == n + 4)
    ensures t * n <= t * stride
    ensures t * n == t * stride <==> stride == n
  {
    if stride == n + 4 {
      assert t * stride == t * n + 4 * t;
    }
  }

  /** With 32 sources and 4 targets, the first enable word of target 2 is the threshold
      register of target 0, and that of target 3 is the threshold register of target 2. */
  lemma IeStrideOverrunsRegionExample()
    ensures Valid(Counts(4, 32, 16))
    ensures IeOffForTarget(Counts(4, 32, 16), 2) == ThreshOffForTarget(Counts(4, 32, 16), 0)
    ensures IeOffForTarget(Counts(4, 32, 16), 3) == ThreshOffForTarget(Counts(4, 32, 16), 2)
  {
    Log2IsFloorLog(16, 4);
  }

  /** When the stride matches the region, every target's enable words end before the
      threshold region begins, and every target's threshold word ends before the claim-id
      region begins. */
  lemma TargetRegistersInsideRegions(c: Counts, t: nat)
    requires Valid(c) && t < c.targets
    requires StrideMatchesRegion(c)
    ensures IeOffset(c) <= IeOffForTarget(c, t)
    ensures IeOffForTarget(c, t) + IeLenPerTarget(c) <= ThresholdOffset(c)
    ensures ThresholdOffset(c) <= ThreshOffForTarget(c, t)
    ensures ThreshOffForTarget(c, t) + 4 <= IdOffset(c)
  {
    var stride := IeLenPerTarget(c);
    var ie := IeOffset(c);
    IeStrideMatchesRegionIff(c);
    StrideFits(t, c.targets, stride);
    assert IeOffForTarget(c, t) == ie + t * stride;
    assert ThresholdOffset(c) == ie + c.targets * stride;
    assert IdOffset(c) == ThresholdOffset(c) + 4 * c.targets;
  }
}

=== FILE: machine.dfy ===
/** C integer conversions and the memory-mapped register file, as the driver sees them.

    Registers are modelled as a plain map from byte address to 32-bit word: a read
    returns the last value written there (0 if nothing was ever written), and a write
    changes that one word only.  Volatile ordering and side-effecting reads are not
    modelled. */
module Machine {

  /** A pointer that may be null, or an optional value. */
  datatype Option<T> = None | Some(value: T)

  const U32_MOD: nat := 0x1_0000_0000
  const U64_MOD: nat := 0x1_0000_0000_0000_0000

  /** Conversion of a C integer value to `u32` (reduction modulo 2^32). */
  function U32(x: int): (r: nat)
    ensures r < U32_MOD
    ensures 0 <= x < U32_MOD ==> r == x
    ensures (x - r) % U32_MOD == 0
  {
    x % U32_MOD
  }

  /** Conversion of a C integer value to a 32-bit two's-complement `int`. */
  function Int32(x: int): (r: int)
    ensures -0x8000_0000 <= r < 0x8000_0000
    ensures -0x8000_0000 <= x < 0x8000_0000 ==> r == x
    ensures (x - r) % U32_MOD == 0
  {
    (x + 0x8000_0000) % U32_MOD - 0x8000_0000
  }

  predicate IsInt32(x: int) {
    -0x8000_0000 <= x < 0x8000_0000
  }

  type RegMap = map<nat, bv32>

  /** `readl`: the word last stored at `a`, or 0 for a register never written. */
  function Read(m: RegMap, a: nat): bv32 {
    if a in m then m[a] else 0
  }

  /** `writel`: stores `v` at `a` and leaves every other register alone. */
  function Write(m: RegMap, a: nat, v: bv32): (r: RegMap)
    ensures Read(r, a) == v
    ensures forall b :: b != a ==> Read(r, b) == Read(m, b)
  {
    m[a := v]
  }

  /** Address of the `i`-th consecutive 32-bit word after `base`; the byte offset
      `0x4 * i` is computed in `u32`, as the accessors do. */
  function WordAddr(base: nat, i: nat): (a: nat)
    ensures 4 * i < U32_MOD ==> a == base + 4 * i
  {
    base + U32(4 * i)
  }

  /** Two word indices below 2^30 never name the same word. */
  lemma WordAddrInjective(base: nat, i: nat, j: nat)
    requires i < 0x4000_0000 && j < 0x4000_0000
    ensures WordAddr(base, i) == WordAddr(base, j) <==> i == j
  {
  }

  /** `writel` of `vals[0]`, `vals[1]`, ... to consecutive words starting at `base`, in
      ascending index order (so on an address collision the later write wins). */
  function StoreWords(m: RegMap, base: nat, vals: seq<bv32>): (r: RegMap)
    ensures forall a :: (forall i :: 0 <= i < |vals| ==> a != WordAddr(base, i)) ==> Read(r, a) == Read(m, a)
    ensures |vals| <= 0x4000_0000 ==> forall i :: 0 <= i < |vals| ==> Read(r, WordAddr(base, i)) == vals[i]
    decreases |vals|
  {
    if |vals| == 0 then m
    else
      var n := |vals| - 1;
      var prev := StoreWords(m, base, vals[..n]);
      assert forall i :: 0 <= i < n ==> vals[..n][i] == vals[i];
      Write(prev, WordAddr(base, n), vals[n])
  }

  /** Address `a` is one of the first `n` words after `base`. */
  predicate Covers(base: nat, n: nat, a: nat) {
    exists i :: 0 <= i < n && a == WordAddr(base, i)
  }

  /** What a word store leaves at the addresses it covers does not depend on the register
      file it started from: the same stores over two register files agree there. */
  lemma {:induction false} StoreWordsOverwrites(m1: RegMap, m2: RegMap, base: nat, vals: seq<bv32>)
    ensures forall a :: Covers(base, |vals|, a) ==>
              Read(StoreWords(m1, base, vals), a) == Read(StoreWords(m2, base, vals), a)
    decreases |vals|
  {
    if |vals| > 0 {
      var n := |vals| - 1;
      StoreWordsOverwrites(m1, m2, base, vals[..n]);
      forall a | Covers(base, |vals|, a)
        ensures Read(StoreWords(m1, base, vals), a) == Read(StoreWords(m2, base, vals), a)
      {
        if a != WordAddr(base, n) {
          var i :| 0 <= i < |vals| && a == WordAddr(base, i);
          assert Covers(base, |vals[..n]|, a);
        }
      }
    }
  }
}

=== FILE: probe.dfy ===
/** The config probe: reads the controller's configuration register and replaces the
    target, source and priority counts field by field, stopping at the first field that
    fails its validation rule. */
module Probe {
  import opened Machine
  import opened Layout

  /** `(word & CONFIG_TARGETS_MASK) >> PLIC_CONFIG_TARGETS_OFFSET`: bits 16-31 of the
      32-bit word, i.e. its value divided by 2^16. */
  function TargetCount(config: bv32): (r: nat)
    ensures r < 0x1_0000
  {
    var n := config as nat;
    HighHalfBound(n);
    n / 0x1_0000
  }

  lemma HighHalfBound(n: nat)
    requires n < U32_MOD
    ensures n / 0x1_0000 < 0x1_0000
  {
    DivBounds(n, 0x1_0000);
  }

  /** `(word & CONFIG_SOURCES_MASK) >> PLIC_CONFIG_SOURCES_OFFSET`: bits 0-15 of the word,
      i.e. its value modulo 2^16. */
  function SourceCount(config: bv32): (r: nat)
    ensures r < 0x1_0000
  {
    config as nat % 0x1_0000
  }

  /** The two 16-bit fields make up the whole word. */
  lemma FieldsPartitionWord(config: bv32)
    ensures TargetCount(config) * 0x1_0000 + SourceCount(config) == config as nat
  {
  }

  /** `tubitak_ic_get_and_set_plic_config`.  `config` is the 32-bit word `readl` returns at
      the controller base (the three reads of the source see the same word), and
      `priorityField` is the `u32` priority count the source extracts from it, taken as given.
      The target check combines its two conditions with a bitwise `|` of two 0/1 values,
      which has the truth value of the logical `||` written here. */
  function ProbeConfig(c: Counts, config: bv32, priorityField: nat): (r: Counts)
    ensures var t := TargetCount(config);
            r.targets == (if TargetCountOk(t) then t else c.targets)
    ensures var t, s := TargetCount(config), SourceCount(config);
            r.sources == (if TargetCountOk(t) && SourceCountOk(s) then s else c.sources)
    ensures var t, s, p := TargetCount(config), SourceCount(config), priorityField;
            r.priorities == (if TargetCountOk(t) && SourceCountOk(s) && PriorityCountOk(p) then p else c.priorities)
  {
    var t := TargetCount(config);
    if !TargetCountOk(t) then c
    else
      var c1 := c.(targets := t);
      var s := SourceCount(config);
      if !SourceCountOk(s) then c1
      else
        var c2 := c1.(sources := s);
        var p := priorityField;
        if !PriorityCountOk(p) then c2
        else c2.(priorities := p)
  }

  /** The probe never produces counts the layout cannot use: valid counts stay valid. */
  lemma ProbePreservesValid(c: Counts, config: bv32, priorityField: nat)
    requires Valid(c) && priorityField < U32_MOD
    ensures Valid(ProbeConfig(c, config, priorityField))
  {
  }

  /** A rejected target count ends the probe: none of the three counts changes. */
  lemma RejectedTargetChangesNothing(c: Counts, config: bv32, priorityField: nat)
    requires !TargetCountOk(TargetCount(config))
    ensures ProbeConfig(c, config, priorityField) == c
  {
  }

  /** A rejected source count keeps the already accepted target count and leaves the
      source and priority counts alone, even when the priority field is acceptable. */
  lemma RejectedSourceKeepsLaterFields(c: Counts, config: bv32, priorityField: nat)
    requires TargetCountOk(TargetCount(config))
    requires !SourceCountOk(SourceCount(config))
    ensures ProbeConfig(c, config, priorityField) == c.(targets := TargetCount(config))
  {
  }

  /** A target field of 3 (not a multiple of 4) leaves the default target count 4 in place. */
  lemma TargetCountThreeIsRejected(priorityField: nat)
    ensures ProbeConfig(DEFAULT_COUNTS, 0x0003_0010, priorityField) == DEFAULT_COUNTS
  {
  }

  /** Probing the same register twice gives the same counts as probing it once. */
  lemma ProbeIdempotent(c: Counts, config: bv32, priorityField: nat)
    ensures ProbeConfig(ProbeConfig(c, config, priorityField), config, priorityField)
         == ProbeConfig(c, config, priorityField)
  {
  }
}

=== FILE: sbi.dfy ===
/** Constants of the surrounding firmware that the driver uses: SBI error codes
    (sbi_error.h) and the RISC-V interrupt numbers of external interrupts
    (riscv_encoding.h).  Neither header is part of this model; only the facts that
    the error codes are non-zero and pairwise distinct matter to the proofs. */
module Sbi {

  const SBI_OK: int := 0
  const SBI_EINVAL: int := -3
  const SBI_ENODEV: int := -1000
  const SBI_ENOMEM: int := -1006

  /** Supervisor-mode and machine-mode external interrupt numbers. */
  const IRQ_S_EXT: nat := 9
  const IRQ_M_EXT: nat := 11
}

=== FILE: uart.dfy ===
/** The Yonca UART console driver: baud-rate (NCO) arithmetic, the control-register update,
    the non-blocking read, one step of the blocking write, and the init sequence.

    The driver keeps the register block's base address in a global that init sets; here the
    `Uart` value carries it together with the register file and whether the console has been
    registered. */
module Uart {
  import opened Machine
  import opened Layout

  /** Byte offset of the `index`-th `u32` field of `struct uart_tubitak_yonca`. */
  function FieldOffset(index: nat): nat {
    4 * index
  }

  const INTR_ENABLE: nat := FieldOffset(1)
  const CTRL: nat := FieldOffset(4)
  const STATUS: nat := FieldOffset(5)
  const RDATA: nat := FieldOffset(6)
  const WDATA: nat := FieldOffset(7)
  const FIFO_STATUS: nat := FieldOffset(9)

  /** The struct places `ctrl`, `status`, `rdata`, `wdata` and `fifo_status` at bytes 16, 20,
      24, 28 and 36, and `intr_enable` at byte 4. */
  lemma RegisterOffsets()
    ensures INTR_ENABLE == 4 && CTRL == 16 && STATUS == 20 && RDATA == 24 && WDATA == 28 && FIFO_STATUS == 36
  {
  }

  /** `UART_RXFIFO_BITS`: the receive-level field, bits 16-21 of `fifo_status`. */
  const RXFIFO_BITS: bv32 := 0x3F << 16
  /** `UART_TXFIFO_BITS`: the transmit-level field, bits 0-5 of `fifo_status`. */
  const TXFIFO_BITS: bv32 := 0x3F
  /** `~UART_NCO_MASK` as a `u32`: every bit except 16-23. */
  const NCO_CLEAR: bv32 := 0xFF00_FFFF
  /** `(1 << RX) | (1 << TX)`. */
  const CTRL_RX_TX: bv32 := 0x3

  /** Base address of the register block, the register file, and whether the console
      device is registered. */
  datatype Uart = Uart(base: nat, regs: RegMap, console: bool)

  /** `get_nco_bits(f_clk, f_baud)`: `16 * 2^16 * f_baud` in `unsigned long` (64-bit)
      arithmetic, divided by `f_clk`, truncated to `u32`. */
  function NcoBits(fClk: nat, fBaud: nat): (r: nat)
    requires fClk > 0
    ensures r < U32_MOD
  {
    U32((0x10_0000 * fBaud) % U64_MOD / fClk)
  }

  /** The NCO value as the `u32` word `setbrg` shifts into `ctrl`. */
  function NcoWord(fClk: nat, fBaud: nat): bv32
    requires fClk > 0
  {
    NcoBits(fClk, fBaud) as bv32
  }

  /** When nothing wraps, the NCO value is the floor of `2^20 * f_baud / f_clk`. */
  lemma NcoIsFloor(fClk: nat, fBaud: nat)
    requires fClk > 0
    requires 0x10_0000 * fBaud < U64_MOD
    requires 0x10_0000 * fBaud < U32_MOD * fClk
    ensures NcoBits(fClk, fBaud) * fClk <= 0x10_0000 * fBaud < (NcoBits(fClk, fBaud) + 1) * fClk
  {
    var a := 0x10_0000 * fBaud;
    var q := a / fClk;
    DivBounds(a, fClk);
    QuotientBound(q, U32_MOD, fClk);
    assert NcoBits(fClk, fBaud) == q;
  }

  lemma QuotientBound(q: nat, m: nat, d: nat)
    requires q * d < m * d
    ensures q < m
  {
    if q >= m {
      MulMonotonic(d, m, q);
    }
  }

  /** The control word `setbrg` writes: bits 16-23 cleared, then the NCO value shifted into
      bits 16 and up. */
  function SetNco(ctrl: bv32, nco: bv32): (r: bv32)
    ensures r & 0xFFFF == ctrl & 0xFFFF
    ensures (r >> 16) & 0xFF == nco & 0xFF
    ensures r >> 24 == (ctrl >> 24) | ((nco >> 8) & 0xFF)
  {
    (ctrl & NCO_CLEAR) | (nco << 16)
  }

  /** When bits 24-31 of the old word are clear (as after init writes `ctrl`), the whole
      16-bit NCO field ends up holding the low 16 bits of the NCO value. */
  lemma SetNcoOnClearHighByte(ctrl: bv32, nco: bv32)
    requires ctrl >> 24 == 0
    ensures SetNco(ctrl, nco) >> 16 == nco & 0xFFFF
    ensures SetNco(ctrl, nco) & 0xFFFF == ctrl & 0xFFFF
  {
  }

  /** `tubitak_yonca_serial_setbrg(in_freq, baudrate)`: read-modify-write of `ctrl`. */
  function Setbrg(u: Uart, inFreq: nat, baudrate: nat): (r: Uart)
    requires inFreq > 0
    ensures r.base == u.base && r.console == u.console
    ensures Read(r.regs, u.base + CTRL) == SetNco(Read(u.regs, u.base + CTRL), NcoWord(inFreq, baudrate))
    ensures forall a :: a != u.base + CTRL ==> Read(r.regs, a) == Read(u.regs, a)
  {
    var ctrl := Read(u.regs, u.base + CTRL);
    u.(regs := Write(u.regs, u.base + CTRL, SetNco(ctrl, NcoWord(inFreq, baudrate))))
  }

  /** The receive FIFO holds no character. */
  predicate RxEmpty(u: Uart) {
    Read(u.regs, u.base + FIFO_STATUS) & RXFIFO_BITS == 0
  }

  /** `tubitak_yonca_serial_getc`: -1 when the receive level is zero, otherwise the `rdata`
      word converted to `int`. */
  function Getc(u: Uart): (r: int)
    ensures RxEmpty(u) ==> r == -1
    ensures !RxEmpty(u) ==> r == Int32(Read(u.regs, u.base + RDATA) as nat)
  {
    if Read(u.regs, u.base + FIFO_STATUS) & RXFIFO_BITS == 0 then -1
    else Int32(Read(u.regs, u.base + RDATA) as nat)
  }

  /** For a data word below 2^31 (a received byte, say), `getc` returns -1 exactly when the
      receive FIFO is empty, and the data word itself otherwise. */
  lemma GetcMinusOneIffEmpty(u: Uart)
    requires Read(u.regs, u.base + RDATA) as nat < 0x8000_0000
    ensures Getc(u) == -1 <==> RxEmpty(u)
    ensures !RxEmpty(u) ==> Getc(u) == Read(u.regs, u.base + RDATA) as nat
  {
  }

  /** The transmit FIFO can take another character. */
  predicate TxReady(u: Uart) {
    Read(u.regs, u.base + FIFO_STATUS) & TXFIFO_BITS < 32
  }

  /** One step of `tubitak_yonca_serial_putc`: while the transmit level is 32 or more the
      driver keeps polling (`None`, nothing written); otherwise it writes the character,
      zero-extended, to `wdata`. */
  function Putc(u: Uart, ch: bv8): (r: Option<Uart>)
    ensures r.Some? <==> TxReady(u)
    ensures r.Some? ==> r.value.base == u.base && r.value.console == u.console
    ensures r.Some? ==> Read(r.value.regs, u.base + WDATA) == ch as bv32
    ensures r.Some? ==> forall a :: a != u.base + WDATA ==> Read(r.value.regs, a) == Read(u.regs, a)
  {
    if Read(u.regs, u.base + FIFO_STATUS) & TXFIFO_BITS >= 32 then None
    else Some(u.(regs := Write(u.regs, u.base + WDATA, ch as bv32)))
  }

  /** `tubitak_uart_init`: records the base address, clears `intr_enable`, enables receive
      and transmit in `ctrl`, sets the baud rate only when both the input clock and the baud
      rate are non-zero, registers the console and returns 0. */
  function UartInit(u: Uart, base: nat, inFreq: nat, baudrate: nat): (r: (int, Uart))
    ensures r.0 == 0 && r.1.base == base && r.1.console
    ensures Read(r.1.regs, base + INTR_ENABLE) == 0
    ensures inFreq == 0 || baudrate == 0 ==> Read(r.1.regs, base + CTRL) == CTRL_RX_TX
    ensures inFreq > 0 && baudrate > 0 ==>
              Read(r.1.regs, base + CTRL) == SetNco(CTRL_RX_TX, NcoWord(inFreq, baudrate))
    ensures forall a :: a != base + INTR_ENABLE && a != base + CTRL ==> Read(r.1.regs, a) == Read(u.regs, a)
  {
    var u1 := Uart(base, Write(u.regs, base + INTR_ENABLE, 0), u.console);
    var u2 := u1.(regs := Write(u1.regs, base + CTRL, CTRL_RX_TX));
    var u3 := if inFreq != 0 && baudrate != 0 then Setbrg(u2, inFreq, baudrate) else u2;
    (0, u3.(console := true))
  }

  /** After init with a non-zero clock and baud rate, `ctrl` has receive and transmit
      enabled in its low half and the low 16 bits of the NCO value in its high half. */
  lemma InitSetsNcoField(u: Uart, base: nat, inFreq: nat, baudrate: nat)
    requires inFreq > 0 && baudrate > 0
    ensures var ctrl := Read(UartInit(u, base, inFreq, baudrate).1.regs, base + CTRL);
            ctrl >> 16 == NcoWord(inFreq, baudrate) & 0xFFFF && ctrl & 0xFFFF == CTRL_RX_TX
  {
    var nco := NcoWord(inFreq, baudrate);
    var ctrl := Read(UartInit(u, base, inFreq, baudrate).1.regs, base + CTRL);
    assert ctrl == SetNco(CTRL_RX_TX, nco);
    SetNcoOnClearHighByte(CTRL_RX_TX, nco);
  }
}
